=== FILE: README.md ===
# MIRACL reranking evaluation, modelled in Dafny

This project models the reranking evaluator of the MIRACL reranking task in
`mteb/tasks/Reranking/multilingual/MIRACLReranking.py`. For every sample it
has a query (one string or a list of query variants), the positive
documents and the candidate documents retrieved by an earlier stage. It
builds two maps, both keyed by a synthetic query id:

- **results** holds, for every candidate index, the similarity score of
  that candidate;
- **qrels** holds, for every candidate index, a relevance judgment: 1 if
  the candidate is a positive, 0 otherwise.

Both maps then go to a retrieval-metrics engine, whose four metric groups
are merged into one mapping.

The model is functional. Embeddings and the similarity function are
opaque: a similarity is any function into `real`, and max-pooling only
needs their order. Two facts about the libraries are taken as given, not
proved. They are the definitions of `Encoding.Encode` and
`Scoring.SimilarityMatrix`:

- an encoder is a function from one text to one embedding, so encoding a
  list of texts yields one row per text, in order, whatever the batch
  size;
- `cos_sim(a, b)` is the matrix whose entry (r, c) is the similarity of
  row r of `a` to row c of `b`.

The properties that rest on them are proved: each sample's rows are cut
back out of the flattened encodings (`Batched.SlicesAreOwnRows`), and
`rerank` max-pools over them (`Scoring.PooledScoresAreMaxPooled`).

| module | file | what it holds |
|---|---|---|
| `Wrappers` | `wrappers.dfy` | `Option`, `Result` |
| `Keys` | `keys.dfy` | `str(i)` as a decimal string with its parser; dictionaries built by assignment (`Collect`) and by `enumerate` comprehension (`Enumerate`) |
| `Partition` | `partition.dfy` | flattening per-sample lists, numpy's clamped slicing, running offsets, re-partition |
| `Data` | `data.dfy` | samples, query kinds, errors, relevance judgments, assembling a run from per-sample reranks |
| `Encoding` | `encoding.dfy` | the encoder capability and each path's choice of query and corpus encoder |
| `Scoring` | `scoring.dfy` | `rerank`: similarity matrix, max-pooling over query rows, scores keyed by candidate index |
| `Batched` | `batched.dfy` | `compute_metrics_batched` up to the metric engine: flatten, encode, slice at running offsets, score |
| `Individual` | `individual.dfy` | `compute_metrics_individual` as written and corrected, and its agreement with the batched path |
| `Metrics` | `metrics.dfy` | merging the four metric groups |
| `Driver` | `driver.dfy` | `MIRACLReranking.evaluate`: one evaluator run per language, or one run |

Python's exceptions become `Failure` values of `Data.EvalError`:

| error | Python exception | raised by |
|---|---|---|
| `EmptyQueryEmbedding` | `ValueError` | `rerank` |
| `UnsupportedQueryType` | `ValueError` | a first batched query that is neither a string nor a list |
| `UnsupportedQueryType` | `TypeError` | a later query that cannot be iterated, when the first batched query is a list (`Batched.ListFirstQueries`) |
| `UnsupportedQueryType` | none (the corrected model only) | mixed query kinds on the batched path; a non-string query on the individual path |
| `NoSamples` | `IndexError` | `samples[0]` on an empty batched run |
| `UnboundQueryEmbedding` | `UnboundLocalError` | the individual path as written |
| `MissingData` | `KeyError` | a dataset lookup |

On a non-empty list of samples, the batched path and the individual path
agree under two conditions: every query is a string, and the model offers
both `encode_queries` and `encode_corpus` or neither
(`Individual.BatchedAgreesWithIndividual`).
Then every per-sample score map and judgment map is equal. Only the query
ids differ: the batched path stores sample k under `str(k + 1)`, the
individual path under `str(k)`. A model that offers just one of the two
specialised encoders is encoded differently by the two paths. The
second row under Findings shows the resulting scores.

## Model

All source paths below are relative to the repository root.

| member | source | states |
|---|---|---|
| Keys.ParseStr | mteb/tasks/Reranking/multilingual/MIRACLReranking.py:115 | `str(i)` of a natural number is a decimal string that parses back to i. So the index keys of a score map or judgment map never collide. |
| Keys.StrIsDecimal | mteb/tasks/Reranking/multilingual/MIRACLReranking.py:182 | `str(n)` consists of decimal digits only, and it starts with '0' only for n = 0. |
| Keys.IndexIdsDistinct | mteb/tasks/Reranking/multilingual/MIRACLReranking.py:223 | The individual path's ids `str(0)` .. `str(n-1)` are pairwise distinct, and they are exactly the keys "0" .. "n-1". |
| Keys.CollectContents | mteb/tasks/Reranking/multilingual/MIRACLReranking.py:168-186 | A dict built by assigning values to ids in order has exactly the assigned ids as keys. With distinct ids, each id holds its own value. |
| Keys.CollectConsistent | mteb/tasks/Reranking/multilingual/MIRACLReranking.py:269-272 | When a repeated id is always assigned the same value, each id still holds its own value. |
| Keys.EnumerateContents | mteb/tasks/Reranking/multilingual/MIRACLReranking.py:114-116 | `{str(i): v for i, v in enumerate(vs)}` has exactly the keys "0" .. "n-1", and it holds `vs[i]` under `str(i)`. |
| Partition.Slice | mteb/tasks/Reranking/multilingual/MIRACLReranking.py:173 | numpy's `a[lo:hi]` equals the exact subsequence when the bounds are in range. It is non-empty only when lo < hi and lo is inside the array. It is never longer than the array. |
| Partition.OffsetStrictlyIncreasing | mteb/tasks/Reranking/multilingual/MIRACLReranking.py:170-174 | When every sample contributes at least one query row, the running query offset strictly increases. |
| Partition.OffsetOfOnes | mteb/tasks/Reranking/multilingual/MIRACLReranking.py:170-174 | When every sample contributes exactly one row, the offset after k samples is k. |
| Partition.FinalOffset | mteb/tasks/Reranking/multilingual/MIRACLReranking.py:157-180 | After the last sample, the running offset equals the length of the flattened list. |
| Partition.PartitionRecoversBlock | mteb/tasks/Reranking/multilingual/MIRACLReranking.py:157-180 | Re-partition is a left inverse of flattening. The slice between the offsets before and after block k is block k, in order. The two offsets differ by the block's length. |
| Data.QueryTexts | mteb/tasks/Reranking/multilingual/MIRACLReranking.py:170-172 | A string query contributes one text and a list query contributes its elements. Either way the count is `num_subqueries`. |
| Data.JudgeLabels | mteb/tasks/Reranking/multilingual/MIRACLReranking.py:184-186 | A judgment map has exactly one entry per candidate, keyed "0" .. "C-1". Entry i is 1 iff candidate i is among the positives, and 0 otherwise. |
| Data.RelevantKeys | mteb/tasks/Reranking/multilingual/MIRACLReranking.py:184-186 | The keys judged relevant are exactly the indices of the candidates that are positives. |
| Data.JudgeIgnoresPositivesOutsideCandidates | mteb/tasks/Reranking/multilingual/MIRACLReranking.py:184-186 | Positives absent from the candidate list produce no entries. Changing them leaves the judgments unchanged. |
| Data.JudgeExample | mteb/tasks/Reranking/multilingual/MIRACLReranking.py:225-227 | Candidates ["a", "b", "c"] with positive ["b"] are judged `{"0": 0, "1": 1, "2": 0}`. |
| Data.AssembleRun | mteb/tasks/Reranking/multilingual/MIRACLReranking.py:168-186 | A run completes iff every sample's rerank succeeds. Otherwise it fails with the error of the first failing sample. |
| Data.AssembleRunContents | mteb/tasks/Reranking/multilingual/MIRACLReranking.py:182-186 | Results and qrels of a completed run have the same key set: the ids written. With distinct ids, every sample's scores and judgments sit under its own id. |
| Encoding.EncoderChoiceAgreement | mteb/tasks/Reranking/multilingual/MIRACLReranking.py:201-206 | The individual path picks `encode_queries` and `encode_corpus` separately, each when present. The batched path (lines 124-133) uses them only when both are present. So if the model offers both specialised encoders or neither, the two paths use the same encoders. With only `encode_queries`, the batched path encodes queries with `encode` and the individual path with `encode_queries`. With only `encode_corpus`, the same holds for the candidates. |
| Encoding.Normalised | mteb/tasks/Reranking/multilingual/MIRACLReranking.py:122-133 | Offering the individual path's choices (lines 201-206) as both specialised encoders makes the batched path's `isinstance` test pass and use exactly those choices. The individual path's own choices are unchanged. |
| Scoring.ColumnMax | mteb/tasks/Reranking/multilingual/MIRACLReranking.py:112 | `amax` over rows: the column's value is at least every entry of the column and equals one of them. |
| Scoring.Rerank | mteb/tasks/Reranking/multilingual/MIRACLReranking.py:104-108 | `rerank` fails iff the query block has no rows, whatever the number of candidates, and the error is the empty-query error. With at least one query row and no candidates, it returns `{}`. |
| Scoring.RerankScores | mteb/tasks/Reranking/multilingual/MIRACLReranking.py:110-116 | A successful rerank has exactly one entry per candidate, keyed "0" .. "C-1". Each entry is the maximum similarity of that candidate over all query rows: at least each row's similarity, and equal to one of them. |
| Scoring.PooledScoresAreMaxPooled | mteb/tasks/Reranking/multilingual/MIRACLReranking.py:110-116 | The enumerated, max-pooled similarity matrix is keyed "0" .. "C-1" and max-pooled. |
| Scoring.SingleQueryRowScores | mteb/tasks/Reranking/multilingual/MIRACLReranking.py:110-116 | With one query row, candidate c's score is that row's similarity to candidate c. |
| Scoring.MaxPoolPicksBestVariant | mteb/tasks/Reranking/multilingual/MIRACLReranking.py:110-112 | With two query variants, a candidate's score is the larger of its two similarities, not the first variant's similarity or their average. |
| Batched.FlattenQueries | mteb/tasks/Reranking/multilingual/MIRACLReranking.py:136-154 | On queries of one kind, flattening fails iff that kind is neither a string nor a list, with the unsupported-query error. Otherwise it is every sample's query texts, concatenated in sample order. |
| Batched.ListFirstQueries | mteb/tasks/Reranking/multilingual/MIRACLReranking.py:145-150 | As written, with a list as the first query every sample's query is iterated. A string yields its characters, so it contributes one text per character. The flattening fails iff some query cannot be iterated, and then with the unsupported-query error (the `TypeError` at line 146). On queries of one kind it equals the flattening `Batched.FlattenQueries` describes. |
| Batched.MixedKindsCounterexample | mteb/tasks/Reranking/multilingual/MIRACLReranking.py:145-174 | As written, for the queries `["p"]`, `"ab"`, `["q"]` the flattened texts are "p", "a", "b", "q", while the offsets count one row per sample. So the third sample's query block is the row of "b", and it is reranked on that row. The block differs from the sample's own rows whenever the encoder tells "b" and "q" apart. |
| Batched.SlicesAreOwnRows | mteb/tasks/Reranking/multilingual/MIRACLReranking.py:167-180 | Sample k's query block and candidate block, sliced from the flattened encodings at the running offsets, are exactly the encodings of its own query texts and its own candidates, in order. A string query gives one row. |
| Batched.SliceReranksAreOwn | mteb/tasks/Reranking/multilingual/MIRACLReranking.py:167-183 | Reranking the sliced blocks gives the same result as reranking every sample on its own encodings. |
| Batched.OffsetsEndAtFlattenedLengths | mteb/tasks/Reranking/multilingual/MIRACLReranking.py:167-180 | The running query offset and the running document offset end at the lengths of the flattened query list and the flattened candidate list. |
| Batched.BatchedIdsIncreasing | mteb/tasks/Reranking/multilingual/MIRACLReranking.py:170-182 | When every sample has at least one query text, the ids `str(query_idx)` are decimal strings whose values strictly increase, so they are distinct. |
| Batched.BatchedRunOutcome | mteb/tasks/Reranking/multilingual/MIRACLReranking.py:136-186 | An empty sample list fails on `samples[0]`. A first query that is neither a string nor a list fails with the unsupported-query error, and so do queries of mixed kinds. Otherwise the run completes iff every sample has at least one query text, and if not it fails with the empty-query error. |
| Batched.BatchedRunContents | mteb/tasks/Reranking/multilingual/MIRACLReranking.py:182-186 | A completed run has queries of one kind and distinct ids, and results and qrels both have exactly the ids as keys. Under sample k's id sit its judgments, and a score map with the same index keys that is max-pooled over its own encodings. |
| Batched.FirstFailureDecides | mteb/tasks/Reranking/multilingual/MIRACLReranking.py:183 | The first sample whose rerank raises decides the outcome of the run. |
| Batched.ScoreBatched | mteb/tasks/Reranking/multilingual/MIRACLReranking.py:167-186 | The scoring loop computes the run assembled from the batched ids, the rerank of each sample's sliced blocks and each sample's judgments. That includes the first failure. |
| Batched.ComputeMetricsBatched | mteb/tasks/Reranking/multilingual/MIRACLReranking.py:118-186 | The batched computation (flatten, encode, slice, score) equals the batched run, in which every sample is reranked on its own rows. Mixed query kinds are rejected. |
| Individual.IndividualRunOutcome | mteb/tasks/Reranking/multilingual/MIRACLReranking.py:209-227 | The corrected individual run completes iff every query is a string. Otherwise it fails with the unsupported-query error. One query row never makes `rerank` fail. |
| Individual.IndividualEntry | mteb/tasks/Reranking/multilingual/MIRACLReranking.py:223-227 | Under `str(k)` sit sample k's judgments and the rerank of its own query string against its own candidates. |
| Individual.OneQueryRowScores | mteb/tasks/Reranking/multilingual/MIRACLReranking.py:214-224 | Reranking one query row succeeds, keys the scores "0" .. "C-1", and scores each candidate by its similarity to that row. |
| Individual.IndividualRunContents | mteb/tasks/Reranking/multilingual/MIRACLReranking.py:209-227 | On string queries, results and qrels both have exactly the keys "0" .. "n-1". Under `str(k)` sit sample k's judgments, with the same index keys as its scores. Each score is the similarity of the query's embedding to that candidate's embedding. |
| Individual.ComputeMetricsIndividual | mteb/tasks/Reranking/multilingual/MIRACLReranking.py:193-227 | The per-sample loop, with non-string queries rejected, computes the corrected individual run. |
| Individual.BoundEmbeddings | mteb/tasks/Reranking/multilingual/MIRACLReranking.py:213-221 | As written, the embeddings held at sample k are the sample's own when its query is a string. Otherwise they are those bound at sample k - 1, which are the embeddings of the closest earlier string sample. There are none iff no query up to k is a string. |
| Individual.StaleReranks | mteb/tasks/Reranking/multilingual/MIRACLReranking.py:214-224 | As written, every sample is reranked on whatever embeddings are bound when the loop reaches it. |
| Individual.AsWrittenAgreesOnText | mteb/tasks/Reranking/multilingual/MIRACLReranking.py:209-227 | On string queries, the loop as written and the corrected run are equal. |
| Individual.AsWrittenEntry | mteb/tasks/Reranking/multilingual/MIRACLReranking.py:223-227 | As written, `str(k)` holds the rerank of the embeddings bound at sample k, next to sample k's own judgments. |
| Individual.StaleScoresRepeat | mteb/tasks/Reranking/multilingual/MIRACLReranking.py:213-224 | As written, a non-string query after a string one gets the previous sample's scores, while its judgments are its own. |
| Individual.StaleEmbeddingsCounterexample | mteb/tasks/Reranking/multilingual/MIRACLReranking.py:213-227 | As written, the second sample of a concrete two-sample run has one score key but two judgment keys. |
| Individual.TextBatchedIds | mteb/tasks/Reranking/multilingual/MIRACLReranking.py:170-182 | With one query text per sample, the batched ids are "1" .. "n". |
| Individual.BatchedTextEntry | mteb/tasks/Reranking/multilingual/MIRACLReranking.py:169-186 | On string queries the batched run completes. Under `str(k + 1)` sits the rerank of sample k's query string against its candidates, both encoded with the batched path's encoders. |
| Individual.BatchedAgreesWithIndividual | mteb/tasks/Reranking/multilingual/MIRACLReranking.py:169-227 | On a non-empty list of all-string samples with a consistent encoder, both paths complete. The batched entries under `str(k + 1)` equal the individual entries under `str(k)`, for results and for qrels. |
| Individual.QueryEncoderOnlyScores | mteb/tasks/Reranking/multilingual/MIRACLReranking.py:124-133 | For a model with `encode_queries` but no `encode_corpus`, the batched path scores a one-sample list with the query encoded by `encode`. The individual path (lines 201-206) scores it with the query encoded by `encode_queries`. |
| Individual.EncoderChoiceCounterexample | mteb/tasks/Reranking/multilingual/MIRACLReranking.py:124-133 | With `encode` giving [0.0], `encode_queries` giving [1.0] and a similarity that reads the query's first coordinate, the same one-sample list scores 0.0 on the batched path and 1.0 on the individual path. |
| Individual.NormalisedBatchedAgrees | mteb/tasks/Reranking/multilingual/MIRACLReranking.py:122-133 | With the encoder choice the comment at lines 122-123 describes (each specialised encoder whenever it exists), the batched path agrees with the individual path on a non-empty list of all-string samples for every model. The batched entries under `str(k + 1)` equal the individual entries under `str(k)`, for results and for qrels. |
| Metrics.Merge | mteb/tasks/Reranking/multilingual/MIRACLReranking.py:191 | `{**ndcg, **_map, **recall, **precision}` has every metric name of every group. A name present in several groups takes the value of the last one. |
| Metrics.MergeKeepsDisjointGroups | mteb/tasks/Reranking/multilingual/MIRACLReranking.py:232 | With distinct metric names across the groups, every group's values survive the merge unchanged. The size of the merged map is the sum of the groups' sizes. |
| Driver.LanguageResult | mteb/tasks/Reranking/multilingual/MIRACLReranking.py:270-272 | A language whose data or split is missing fails with the missing-data error. Otherwise its result is the evaluator's run on its own split. |
| Driver.EvaluateLanguagesContents | mteb/tasks/Reranking/multilingual/MIRACLReranking.py:267-272 | The per-language evaluation completes iff every language's run completes. It then maps exactly the listed languages, each to its own run's metrics. On failure, the error is that of the first failing language. |
| Driver.EvaluateOrderInsensitive | mteb/tasks/Reranking/multilingual/MIRACLReranking.py:269-272 | Any two lists of the same languages either both complete with the same mapping or both fail. |
| Driver.LanguagesIndependent | mteb/tasks/Reranking/multilingual/MIRACLReranking.py:269-272 | A language's metrics depend only on its own split. Datasets that differ elsewhere give it the same entry. |
| Driver.FirstFailingLanguage | mteb/tasks/Reranking/multilingual/MIRACLReranking.py:270-272 | The first language whose lookup or run fails decides the outcome. |
| Driver.EvaluateMultilingual | mteb/tasks/Reranking/multilingual/MIRACLReranking.py:267-272 | The loop over the languages computes the per-language evaluation. |
| Driver.Evaluate | mteb/tasks/Reranking/multilingual/MIRACLReranking.py:263-279 | A monolingual dataset gives the one run's metrics; it completes iff the split exists and the run completes. A missing split fails with the missing-data error (the `KeyError` at line 274), and a failed run with that run's error. A multilingual dataset completes iff every language does. It then maps exactly the listed languages, each to the metrics of its own run. Otherwise it fails with the error of the first failing language. |

## Left out

- The encoders (`encode`, `encode_queries`, `encode_corpus`) are model inference. Each is a parameter: a function from one text to one embedding. Batch size affects scheduling only.
- The protocol `EncoderWithQueryCorpusEncode` is not part of this model. Its `isinstance` test is read as "the model has both `encode_queries` and `encode_corpus`".
- `cos_sim`, torch and numpy tensors, and the `.item()` conversion to float are left out. The similarity is an opaque function into `real`. `cos_sim` always returns a matrix, so `amax` is applied even to a single query row, which leaves that row unchanged.
- `RetrievalEvaluator.evaluate` is not modelled. It is the pytrec_eval metric engine, and the NDCG/MAP/Recall/Precision values come from it. The model stops at the results and qrels it receives; only the merge of its four groups is modelled.
- `RerankingEvaluator` is not part of this model: its constructor, its `__call__` (the choice between the two paths, the sample `limit`) and `mrr_at_k`. In the driver, the evaluator run on one sample list is a parameter.
- On an empty sample list the two paths differ: the batched path fails with `NoSamples`, as `samples[0]` does, and the individual path returns an empty run. The agreement lemmas therefore cover non-empty lists only.
- The order of keys is not modelled. Python dicts keep insertion order, while Dafny maps do not. This covers the metric names merged at lines 191 and 232 and the languages in `dict(scores)` at line 279. Nothing in this file reads that order.
- Logging, the tqdm progress bar, `TaskMetadata`, `_LANGUAGES`, `_CITATION`, `load_data` and dataset caching are left out. The driver is given the loaded dataset.
- Batched.ComputeMetricsBatched: rejects queries of mixed kinds with the unsupported-query error. The source does not check for them (see Findings). When the first query is a list, the code as written is `Batched.ListFirstQueries`. When the first query is a string and a later one is a list, the source hands the list itself to the encoder. That case is not modelled, because an encoder here takes one string.
- Batched.FlattenQueries: requires queries of one kind. It is only reached after `Batched.ComputeMetricsBatched` has rejected mixed kinds.
- Individual.ComputeMetricsIndividual: rejects a non-string query with an error instead of reusing stale embeddings. See Findings; the code as written is `Individual.IndividualAsWritten`.
- Individual.BatchedAgreesWithIndividual: requires a model with both specialised encoders or neither; with only one, the paths differ (see Findings). `Individual.NormalisedBatchedAgrees` states agreement for every model under the corrected encoder choice. It states agreement of the per-sample results and qrels, not of the final metrics. The metric engine is not modelled, so whether the renaming of query ids changes the metrics is not stated.

## Findings

| source | as written | input that shows it | evidently intended | confidence | as-written member | corrected member |
|---|---|---|---|---|---|---|
| mteb/tasks/Reranking/multilingual/MIRACLReranking.py:214-224 | `query_emb` and `docs_emb` are assigned only when the query is a string. A list query is reranked on the embeddings left by the previous string sample. If it is the first sample, no embeddings are bound and the loop raises `UnboundLocalError`. | Samples `[("a", positive [], candidates ["x"]), (["b"], positive ["y"], candidates ["y", "z"])]`: under "1", results has the single key "0", computed from "a" against "x". qrels has the keys "0" and "1". | Reject a non-string query with an error, or encode it as the batched path does. Never score a sample on another sample's embeddings. | high; not executed | Individual.StaleEmbeddingsCounterexample | Individual.IndividualRunContents |
| mteb/tasks/Reranking/multilingual/MIRACLReranking.py:124-133 | The batched path uses `encode_queries` and `encode_corpus` only when the model has both. The individual path (lines 201-206) uses each one that is present. | A model with `encode` giving [0.0] and `encode_queries` giving [1.0], no `encode_corpus`, a similarity reading the query's first coordinate, and one sample with query "q" and candidate "d": the batched score is 0.0 and the individual score is 1.0. | Both paths use the same encoders, as the comment at lines 122-123 says: each specialised encoder whenever it exists. | medium; not executed | Individual.EncoderChoiceCounterexample | Individual.NormalisedBatchedAgrees |
| mteb/tasks/Reranking/multilingual/MIRACLReranking.py:145-174 | The first query's kind decides the flattening for all samples. With a list first, a later string query is iterated character by character. The scoring loop still counts that string as one row. A string of length L therefore shifts the rows of every later sample by L - 1, and a later sample is misaligned whenever the shifts before it do not sum to zero, for example after one string that is not exactly one character long. | Queries `["p"]`, `"ab"`, `["q"]`, each with candidate "d": the texts are "p", "a", "b", "q", and the third sample is reranked on the row of "b" instead of "q". | Reject mixed query kinds instead of scoring samples on other samples' rows. The first query alone picks the flattening at lines 136-154, while line 171 counts rows per sample, so a string query under a list-first flattening is counted with the wrong number of rows unless it is exactly one character long. | high; not executed | Batched.MixedKindsCounterexample | Batched.BatchedRunContents |

=== FILE: batched.dfy ===
/**
  `compute_metrics_batched`: every query text and every candidate of every
  sample is encoded in one pass, and the encoded rows are cut back into
  per-sample blocks with running offsets before each sample is reranked
  and judged. The query id of a sample is the running query offset after
  that sample.
*/
module Batched {
  import opened Wrappers
  import opened Keys
  import opened Partition
  import opened Data
  import opened Encoding
  import opened Scoring

  /** Each sample's query texts, in sample order. */
  function QueryLists(samples: seq<Sample>): (ql: seq<seq<string>>)
    ensures |ql| == |samples| && forall k :: 0 <= k < |samples| ==> ql[k] == QueryTexts(samples[k].query)
  {
    seq(|samples|, k requires 0 <= k < |samples| => QueryTexts(samples[k].query))
  }

  /** Each sample's candidates, in sample order. */
  function CandidateLists(samples: seq<Sample>): (cl: seq<seq<string>>)
    ensures |cl| == |samples| && forall k :: 0 <= k < |samples| ==> cl[k] == samples[k].candidates
  {
    seq(|samples|, k requires 0 <= k < |samples| => samples[k].candidates)
  }

  /** The amount the query offset advances per sample. */
  function QueryCounts(samples: seq<Sample>): (qc: seq<nat>)
    ensures |qc| == |samples| && forall k :: 0 <= k < |samples| ==> qc[k] == NumSubqueries(samples[k].query)
  {
    seq(|samples|, k requires 0 <= k < |samples| => NumSubqueries(samples[k].query))
  }

  /** The amount the candidate offset advances per sample. */
  function DocCounts(samples: seq<Sample>): seq<nat> {
    Lengths(CandidateLists(samples))
  }

  /** The rows sliced out of the encoded queries for sample k. */
  function QueryBlock(samples: seq<Sample>, allQueryEmbs: seq<Embedding>, k: nat): seq<Embedding>
    requires k < |samples|
  {
    Slice(allQueryEmbs, Offset(QueryCounts(samples), k), Offset(QueryCounts(samples), k + 1))
  }

  /** The rows sliced out of the encoded candidates for sample k. */
  function DocBlock(samples: seq<Sample>, allDocsEmbs: seq<Embedding>, k: nat): seq<Embedding>
    requires k < |samples|
  {
    Slice(allDocsEmbs, Offset(DocCounts(samples), k), Offset(DocCounts(samples), k + 1))
  }

  /** Sample k's id: the running query offset after sample k, as a string. */
  function BatchedIds(samples: seq<Sample>): (ids: seq<string>)
    ensures |ids| == |samples|
    ensures forall k {:trigger ids[k]} :: 0 <= k < |samples| ==> ids[k] == Str(Offset(QueryCounts(samples), k + 1))
  {
    seq(|samples|, k requires 0 <= k < |samples| => Str(Offset(QueryCounts(samples), k + 1)))
  }

  /** Sample k reranked on the blocks sliced out for it. */
  function SliceRerank(sim: Similarity, samples: seq<Sample>, allQueryEmbs: seq<Embedding>, allDocsEmbs: seq<Embedding>, k: nat)
    : Result<ScoreMap, EvalError>
  {
    if k < |samples| then Rerank(sim, QueryBlock(samples, allQueryEmbs, k), DocBlock(samples, allDocsEmbs, k))
    // Never reached: the value only makes the function total for `Tabulate`.
    else Failure(EmptyQueryEmbedding)
  }

  /** Every sample, each reranked on the blocks sliced out for it. */
  function SliceReranks(sim: Similarity, samples: seq<Sample>, allQueryEmbs: seq<Embedding>, allDocsEmbs: seq<Embedding>)
    : (rs: seq<Result<ScoreMap, EvalError>>)
    ensures |rs| == |samples|
  {
    Tabulate(k => SliceRerank(sim, samples, allQueryEmbs, allDocsEmbs, k), |samples|)
  }

  lemma SliceRerankAt(sim: Similarity, samples: seq<Sample>, allQueryEmbs: seq<Embedding>, allDocsEmbs: seq<Embedding>, k: nat)
    requires k < |samples|
    ensures SliceReranks(sim, samples, allQueryEmbs, allDocsEmbs)[k]
         == Rerank(sim, QueryBlock(samples, allQueryEmbs, k), DocBlock(samples, allDocsEmbs, k))
  {
    TabulateAt(k => SliceRerank(sim, samples, allQueryEmbs, allDocsEmbs, k), |samples|, k);
  }

  lemma {:induction false} ConcatOfSingletons<T>(xss: seq<seq<T>>)
    requires forall k :: 0 <= k < |xss| ==> |xss[k]| == 1
    ensures Concat(xss) == seq(|xss|, k requires 0 <= k < |xss| => xss[k][0])
    decreases |xss|
  {
    if |xss| > 0 {
      ConcatOfSingletons(xss[..|xss| - 1]);
    }
  }

  /**
    The flattened query texts. The kind of the first query decides: a
    string query contributes itself, a list query its elements; any other
    kind is rejected. Either way the result is every sample's query texts
    concatenated in order.
  */
  function FlattenQueries(samples: seq<Sample>): (r: Result<seq<string>, EvalError>)
    requires |samples| > 0 && Homogeneous(samples)
    ensures r.Failure? <==> samples[0].query.NonText?
    ensures r.Failure? ==> r.error == UnsupportedQueryType
    ensures r.Success? ==> r.value == Concat(QueryLists(samples))
  {
    match samples[0].query
    case Text(_) =>
      var texts := seq(|samples|, k requires 0 <= k < |samples| && samples[k].query.Text? => samples[k].query.text);
      ConcatOfSingletons(QueryLists(samples));
      Success(texts)
    case TextList(_) => Success(Concat(QueryLists(samples)))
    case NonText => Failure(UnsupportedQueryType)
  }

  /**
    Iterating one query, as `for q in sample["query"]` does: a list yields
    its elements, and a string, being iterable too, its characters one by
    one.
  */
  function IteratedTexts(q: Query): (ts: seq<string>)
    requires !q.NonText?
    ensures q.TextList? ==> ts == q.texts
    ensures q.Text? ==> |ts| == |q.text| && forall i :: 0 <= i < |ts| ==> ts[i] == [q.text[i]]
  {
    match q
    case TextList(texts) => texts
    case Text(text) => seq(|text|, i requires 0 <= i < |text| => [text[i]])
  }

  /** Each iterable sample's query, iterated. */
  function IteratedLists(samples: seq<Sample>): (ql: seq<seq<string>>)
    ensures |ql| == |samples|
    ensures forall k :: 0 <= k < |samples| && !samples[k].query.NonText? ==> ql[k] == IteratedTexts(samples[k].query)
  {
    seq(|samples|, k requires 0 <= k < |samples| => if samples[k].query.NonText? then [] else IteratedTexts(samples[k].query))
  }

  /**
    The flattening as written when the first query is a list: every
    sample's query is iterated, whatever its own kind, while the scoring
    loop still counts a string query as one row. A query that cannot be
    iterated is rejected.
  */
  function ListFirstQueries(samples: seq<Sample>): (r: Result<seq<string>, EvalError>)
    requires |samples| > 0 && samples[0].query.TextList?
    ensures r.Failure? <==> exists k :: 0 <= k < |samples| && samples[k].query.NonText?
    ensures r.Failure? ==> r.error == UnsupportedQueryType
    ensures Homogeneous(samples) ==> r == FlattenQueries(samples)
    ensures r.Success? ==> r.value == Concat(IteratedLists(samples))
    ensures r.Success? ==> forall k :: 0 <= k < |samples| && samples[k].query.Text? ==>
              |IteratedLists(samples)[k]| == |samples[k].query.text|
              && forall i :: 0 <= i < |samples[k].query.text| ==> IteratedLists(samples)[k][i] == [samples[k].query.text[i]]
  {
    if exists k :: 0 <= k < |samples| && samples[k].query.NonText? then Failure(UnsupportedQueryType)
    else
      var iterated := IteratedLists(samples);
      assert Homogeneous(samples) ==> iterated == QueryLists(samples) by {
        if Homogeneous(samples) {
          forall k | 0 <= k < |samples| ensures iterated[k] == QueryLists(samples)[k] {
            assert SameKind(samples[k].query, samples[0].query);
          }
        }
      }
      Success(Concat(iterated))
  }

  /** A list query, then a string query, then a list query, each with the one candidate "d". */
  const MixedSamples: seq<Sample> := [Sample(TextList(["p"]), [], ["d"]), Sample(Text("ab"), [], ["d"]), Sample(TextList(["q"]), ["d"], ["d"])]

  /** As written, the string "ab" of MixedSamples is flattened into two texts. */
  lemma MixedSamplesFlatten()
    ensures ListFirstQueries(MixedSamples) == Success(["p", "a", "b", "q"])
  {
    assert IteratedTexts(MixedSamples[1].query) == ["a", "b"];
    var iterated := [["p"], ["a", "b"], ["q"]];
    assert forall k :: 0 <= k < |MixedSamples| ==> !MixedSamples[k].query.NonText?;
    assert IteratedLists(MixedSamples) == iterated;
    assert ListFirstQueries(MixedSamples) == Success(Concat(iterated));
    assert iterated[..2][..1] == iterated[..1] == [["p"]] && iterated[..1][..0] == [];
    assert Concat(iterated[..1]) == ["p"];
    assert Concat(iterated[..2]) == ["p", "a", "b"];
    assert iterated[..|iterated| - 1] == iterated[..2];
    assert Concat(iterated) == ["p", "a", "b"] + ["q"] == ["p", "a", "b", "q"];
  }

  /** The scoring loop counts one row per sample of MixedSamples, for queries and for candidates alike. */
  lemma MixedSamplesOffsets()
    ensures Offset(QueryCounts(MixedSamples), 2) == 2 && Offset(QueryCounts(MixedSamples), 3) == 3
    ensures Offset(DocCounts(MixedSamples), 2) == 2 && Offset(DocCounts(MixedSamples), 3) == 3
    ensures Concat(CandidateLists(MixedSamples)) == ["d", "d", "d"]
  {
    var qc, dc, cl := QueryCounts(MixedSamples), DocCounts(MixedSamples), CandidateLists(MixedSamples);
    assert qc == [1, 1, 1];
    OffsetOfOnes(qc, 2);
    OffsetOfOnes(qc, 3);
    assert dc == [1, 1, 1];
    OffsetOfOnes(dc, 2);
    OffsetOfOnes(dc, 3);
    assert cl == [["d"], ["d"], ["d"]];
    assert cl[..2][..1] == cl[..1] == [["d"]] && cl[..1][..0] == [];
    assert Concat(cl[..1]) == ["d"];
    assert Concat(cl[..2]) == ["d", "d"];
  }

  /**
    Mixed kinds as written: the string contributes one row per character
    while the offsets count it as one row, so the third sample of
    MixedSamples is scored on the row of "b" and not on its own variant "q".
  */
  lemma MixedKindsCounterexample(qf: string -> Embedding, cf: string -> Embedding, sim: Similarity)
    ensures ListFirstQueries(MixedSamples) == Success(["p", "a", "b", "q"])
    ensures var allQueryEmbs, allDocsEmbs := Encode(qf, ["p", "a", "b", "q"]), Encode(cf, ["d", "d", "d"]);
            && QueryBlock(MixedSamples, allQueryEmbs, 2) == [qf("b")]
            && SliceReranks(sim, MixedSamples, allQueryEmbs, allDocsEmbs)[2] == Rerank(sim, [qf("b")], [cf("d")])
            && (qf("b") != qf("q") ==> QueryBlock(MixedSamples, allQueryEmbs, 2) != Encode(qf, QueryTexts(MixedSamples[2].query)))
  {
    MixedSamplesFlatten();
    MixedSamplesOffsets();
    var allQueryEmbs, allDocsEmbs := Encode(qf, ["p", "a", "b", "q"]), Encode(cf, ["d", "d", "d"]);
    assert QueryBlock(MixedSamples, allQueryEmbs, 2) == allQueryEmbs[2..3] == [qf("b")];
    assert DocBlock(MixedSamples, allDocsEmbs, 2) == allDocsEmbs[2..3] == [cf("d")];
    SliceRerankAt(sim, MixedSamples, allQueryEmbs, allDocsEmbs, 2);
    assert QueryTexts(MixedSamples[2].query) == ["q"];
  }

  lemma SliceEncode(f: string -> Embedding, s: seq<string>, lo: nat, hi: nat)
    ensures Slice(Encode(f, s), lo, hi) == Encode(f, Slice(s, lo, hi))
  {
  }

  /**
    Re-partition recovers each sample's own rows: cutting the encoded
    flattened lists at the running offsets yields exactly the encodings of
    sample k's query texts and of its candidates, in order.
  */
  lemma SlicesAreOwnRows(qf: string -> Embedding, cf: string -> Embedding, samples: seq<Sample>, k: nat)
    requires Homogeneous(samples) && k < |samples| && !samples[0].query.NonText?
    ensures QueryBlock(samples, Encode(qf, Concat(QueryLists(samples))), k) == Encode(qf, QueryTexts(samples[k].query))
    ensures DocBlock(samples, Encode(cf, Concat(CandidateLists(samples))), k) == Encode(cf, samples[k].candidates)
  {
    assert QueryCounts(samples) == Lengths(QueryLists(samples));
    PartitionRecoversBlock(QueryLists(samples), k);
    PartitionRecoversBlock(CandidateLists(samples), k);
    var qo := Offset(QueryCounts(samples), k);
    var qo' := Offset(QueryCounts(samples), k + 1);
    SliceEncode(qf, Concat(QueryLists(samples)), qo, qo');
    var dro := Offset(DocCounts(samples), k);
    var dro' := Offset(DocCounts(samples), k + 1);
    SliceEncode(cf, Concat(CandidateLists(samples)), dro, dro');
  }

  /** Reranking the sliced blocks is reranking every sample on its own encodings. */
  lemma SliceReranksAreOwn(sim: Similarity, qf: string -> Embedding, cf: string -> Embedding, samples: seq<Sample>)
    requires Homogeneous(samples) && |samples| > 0 && !samples[0].query.NonText?
    ensures SliceReranks(sim, samples, Encode(qf, Concat(QueryLists(samples))), Encode(cf, Concat(CandidateLists(samples))))
         == OwnReranks(sim, qf, cf, samples)
  {
    var allQueryEmbs, allDocsEmbs := Encode(qf, Concat(QueryLists(samples))), Encode(cf, Concat(CandidateLists(samples)));
    forall k | 0 <= k < |samples|
      ensures SliceReranks(sim, samples, allQueryEmbs, allDocsEmbs)[k] == OwnReranks(sim, qf, cf, samples)[k]
    {
      SliceRerankAt(sim, samples, allQueryEmbs, allDocsEmbs, k);
      SlicesAreOwnRows(qf, cf, samples, k);
    }
  }

  /** The running offsets end at the lengths of the flattened lists. */
  lemma OffsetsEndAtFlattenedLengths(samples: seq<Sample>)
    requires |samples| > 0 && Homogeneous(samples) && !samples[0].query.NonText?
    ensures Offset(QueryCounts(samples), |samples|) == |FlattenQueries(samples).value|
    ensures Offset(DocCounts(samples), |samples|) == |Concat(CandidateLists(samples))|
  {
    assert QueryCounts(samples) == Lengths(QueryLists(samples));
    FinalOffset(QueryLists(samples));
    FinalOffset(CandidateLists(samples));
  }

  /**
    When every sample has at least one query text, the ids are the
    strings of strictly increasing numbers, hence pairwise distinct.
  */
  lemma BatchedIdsIncreasing(samples: seq<Sample>)
    requires forall k :: 0 <= k < |samples| ==> NumSubqueries(samples[k].query) >= 1
    ensures forall k :: 0 <= k < |samples| ==> IsDecimal(BatchedIds(samples)[k])
    ensures forall j, k :: 0 <= j < k < |samples| ==> Parse(BatchedIds(samples)[j]) < Parse(BatchedIds(samples)[k])
    ensures Distinct(BatchedIds(samples))
  {
    var ids := BatchedIds(samples);
    var qc := QueryCounts(samples);
    forall k | 0 <= k < |samples| ensures IsDecimal(ids[k]) {
      StrIsDecimal(Offset(qc, k + 1));
    }
    forall j, k | 0 <= j < k < |samples| ensures Parse(ids[j]) < Parse(ids[k]) {
      OffsetStrictlyIncreasing(qc, j + 1, k + 1);
      ParseStr(Offset(qc, j + 1));
      ParseStr(Offset(qc, k + 1));
    }
  }

  /**
    The batched evaluation as a whole: an empty sample list, an
    unsupported query kind or a mix of query kinds is rejected; otherwise
    every sample is reranked on its own encoded rows and judged, under its
    running-offset id. The source does not check for mixed kinds (see
    ListFirstQueries for what it does instead).
  */
  function BatchedRun(model: Encoder, sim: Similarity, samples: seq<Sample>): Result<RunMaps, EvalError> {
    if |samples| == 0 then Failure(NoSamples)
    else if samples[0].query.NonText? || !Homogeneous(samples) then Failure(UnsupportedQueryType)
    else AssembleRun(BatchedIds(samples),
                     OwnReranks(sim, BatchedQueryEncoder(model), BatchedCorpusEncoder(model), samples),
                     Judgments(samples))
  }

  /**
    When a batched run fails: an empty sample list, an unsupported query
    kind, or (through `rerank`) a sample whose list of query variants is
    empty. Otherwise it succeeds.
  */
  lemma BatchedRunOutcome(model: Encoder, sim: Similarity, samples: seq<Sample>)
    ensures |samples| == 0 ==> BatchedRun(model, sim, samples) == Failure(NoSamples)
    ensures |samples| > 0 && (samples[0].query.NonText? || !Homogeneous(samples)) ==>
              BatchedRun(model, sim, samples) == Failure(UnsupportedQueryType)
    ensures |samples| > 0 && !samples[0].query.NonText? && Homogeneous(samples) ==>
              (BatchedRun(model, sim, samples).Success? <==>
                 forall k :: 0 <= k < |samples| ==> NumSubqueries(samples[k].query) >= 1)
    ensures |samples| > 0 && !samples[0].query.NonText? && Homogeneous(samples) && BatchedRun(model, sim, samples).Failure? ==>
              BatchedRun(model, sim, samples).error == EmptyQueryEmbedding
  {
    if |samples| > 0 && !samples[0].query.NonText? && Homogeneous(samples) {
      var rs := OwnReranks(sim, BatchedQueryEncoder(model), BatchedCorpusEncoder(model), samples);
      forall k | 0 <= k < |samples|
        ensures rs[k].Success? <==> NumSubqueries(samples[k].query) >= 1
      {
        assert SameKind(samples[k].query, samples[0].query);
      }
    }
  }

  /**
    A successful batched run has distinct ids, the same ids in results and
    qrels, and under each id the sample's own judgments and scores
    max-pooled over its own query rows, keyed by the same candidate indices.
  */
  lemma BatchedRunContents(model: Encoder, sim: Similarity, samples: seq<Sample>)
    requires BatchedRun(model, sim, samples).Success?
    ensures Homogeneous(samples)
    ensures Distinct(BatchedIds(samples))
    ensures BatchedRun(model, sim, samples).value.results.Keys == set x | x in BatchedIds(samples)
    ensures BatchedRun(model, sim, samples).value.qrels.Keys == set x | x in BatchedIds(samples)
    ensures forall k :: 0 <= k < |samples| ==>
              var run, id := BatchedRun(model, sim, samples).value, BatchedIds(samples)[k];
              && run.qrels[id] == Judge(samples[k])
              && run.results[id].Keys == run.qrels[id].Keys
              && IsMaxPooled(sim, Encode(BatchedQueryEncoder(model), QueryTexts(samples[k].query)),
                             Encode(BatchedCorpusEncoder(model), samples[k].candidates), run.results[id])
  {
    var qf, cf := BatchedQueryEncoder(model), BatchedCorpusEncoder(model);
    var rs := OwnReranks(sim, qf, cf, samples);
    var ids := BatchedIds(samples);
    BatchedRunOutcome(model, sim, samples);
    BatchedIdsIncreasing(samples);
    AssembleRunContents(ids, rs, Judgments(samples));
    var run := BatchedRun(model, sim, samples).value;
    forall k | 0 <= k < |samples|
      ensures run.qrels[ids[k]] == Judge(samples[k])
      ensures run.results[ids[k]].Keys == run.qrels[ids[k]].Keys
      ensures IsMaxPooled(sim, Encode(qf, QueryTexts(samples[k].query)), Encode(cf, samples[k].candidates), run.results[ids[k]])
    {
      assert rs[k] == Success(run.results[ids[k]]);
      RerankScores(sim, Encode(qf, QueryTexts(samples[k].query)), Encode(cf, samples[k].candidates));
      JudgeLabels(samples[k]);
    }
  }

  /**
    One step of the scoring loop: when the offsets before sample k advance
    by its number of query texts and of candidates, the rows sliced out
    between them are sample k's blocks and the query id is sample k's id.
  */
  lemma ScoreStep(sim: Similarity, samples: seq<Sample>, allQueryEmbs: seq<Embedding>, allDocsEmbs: seq<Embedding>,
                  k: nat, queryStart: nat, queryEnd: nat, docsStart: nat, docsEnd: nat)
    requires k < |samples|
    requires queryStart == Offset(QueryCounts(samples), k) && docsStart == Offset(DocCounts(samples), k)
    requires queryEnd == queryStart + NumSubqueries(samples[k].query)
    requires docsEnd == docsStart + |samples[k].candidates|
    ensures queryEnd == Offset(QueryCounts(samples), k + 1) && docsEnd == Offset(DocCounts(samples), k + 1)
    ensures Str(queryEnd) == BatchedIds(samples)[k]
    ensures Rerank(sim, Slice(allQueryEmbs, queryStart, queryEnd), Slice(allDocsEmbs, docsStart, docsEnd))
         == SliceReranks(sim, samples, allQueryEmbs, allDocsEmbs)[k]
  {
    assert DocCounts(samples)[k] == |samples[k].candidates|;
    SliceRerankAt(sim, samples, allQueryEmbs, allDocsEmbs, k);
  }

  /** The first failing rerank decides the outcome of the whole run. */
  lemma FirstFailureDecides(ids: seq<string>, reranks: seq<Result<ScoreMap, EvalError>>, judgments: seq<JudgmentMap>, k: nat)
    requires |ids| == |reranks| == |judgments| && k < |reranks|
    requires AllSucceed(reranks[..k]) && reranks[k].Failure?
    ensures AssembleRun(ids, reranks, judgments) == Failure(reranks[k].error)
  {
    assert forall j :: 0 <= j < k ==> reranks[j] == reranks[..k][j];
    assert FirstFailure(reranks) == k;
  }

  /**
    The scoring loop: walk the samples in order, slice each sample's rows
    out of the encoded lists with running offsets, rerank, and store the
    scores and judgments under the running query offset.
  */
  method ScoreBatched(sim: Similarity, samples: seq<Sample>, allQueryEmbs: seq<Embedding>, allDocsEmbs: seq<Embedding>)
    returns (r: Result<RunMaps, EvalError>)
    ensures r == AssembleRun(BatchedIds(samples), SliceReranks(sim, samples, allQueryEmbs, allDocsEmbs), Judgments(samples))
  {
    ghost var ids := BatchedIds(samples);
    ghost var reranks := SliceReranks(sim, samples, allQueryEmbs, allDocsEmbs);
    ghost var judgments := Judgments(samples);
    var queryIdx, docsIdx := 0, 0;
    var results: map<string, ScoreMap> := map[];
    var qrels: map<string, JudgmentMap> := map[];
    var k := 0;
    while k < |samples|
      invariant 0 <= k <= |samples|
      invariant queryIdx == Offset(QueryCounts(samples), k)
      invariant docsIdx == Offset(DocCounts(samples), k)
      invariant AllSucceed(reranks[..k])
      invariant results == Collect(ids[..k], ScoreMaps(reranks)[..k])
      invariant qrels == Collect(ids[..k], judgments[..k])
    {
      var instance := samples[k];
      var numSubqueries := NumSubqueries(instance.query);
      var queryEnd := queryIdx + numSubqueries;
      var queryEmb := Slice(allQueryEmbs, queryIdx, queryEnd);
      var docs := instance.candidates;
      var docsEnd := docsIdx + |docs|;
      var docsEmb := Slice(allDocsEmbs, docsIdx, docsEnd);
      ScoreStep(sim, samples, allQueryEmbs, allDocsEmbs, k, queryIdx, queryEnd, docsIdx, docsEnd);
      queryIdx, docsIdx := queryEnd, docsEnd;
      var fakeQid := Str(queryIdx);
      var scored := Rerank(sim, queryEmb, docsEmb);
      if scored.Failure? {
        FirstFailureDecides(ids, reranks, judgments, k);
        return Failure(scored.error);
      }
      AllSucceedSnoc(reranks, k);
      ResultsStep(ids, reranks, k, results, fakeQid, scored);
      QrelsStep(ids, samples, k, qrels, fakeQid);
      results := results[fakeQid := scored.value];
      qrels := qrels[fakeQid := Judge(instance)];
      k := k + 1;
    }
    assert ids[..k] == ids && ScoreMaps(reranks)[..k] == ScoreMaps(reranks) && judgments[..k] == judgments;
    assert reranks[..k] == reranks;
    r := Success(RunMaps(results, qrels));
  }

  /**
    `compute_metrics_batched` up to the metric engine: flatten and encode
    all query texts and all candidates, then run the scoring loop. The
    result is the batched run in which every sample is scored on its own
    rows.
  */
  method ComputeMetricsBatched(model: Encoder, sim: Similarity, samples: seq<Sample>) returns (r: Result<RunMaps, EvalError>)
    ensures r == BatchedRun(model, sim, samples)
  {
    if |samples| == 0 {
      return Failure(NoSamples);
    }
    if !Homogeneous(samples) {
      return Failure(UnsupportedQueryType);
    }
    var encodeQueries := BatchedQueryEncoder(model);
    var encodeCorpus := BatchedCorpusEncoder(model);
    var flattened := FlattenQueries(samples);
    if flattened.Failure? {
      return Failure(flattened.error);
    }
    var allQueryEmbs := Encode(encodeQueries, flattened.value);
    var allDocs: seq<string> := [];
    var k := 0;
    while k < |samples|
      invariant 0 <= k <= |samples|
      invariant allDocs == Concat(CandidateLists(samples)[..k])
    {
      assert CandidateLists(samples)[..k + 1][..k] == CandidateLists(samples)[..k];
      allDocs := allDocs + samples[k].candidates;
      k := k + 1;
    }
    assert CandidateLists(samples)[..k] == CandidateLists(samples);
    var allDocsEmbs := Encode(encodeCorpus, allDocs);
    r := ScoreBatched(sim, samples, allQueryEmbs, allDocsEmbs);
    SliceReranksAreOwn(sim, encodeQueries, encodeCorpus, samples);
  }
}

=== FILE: data.dfy ===
/**
  The evaluation data: samples, embeddings, score and judgment maps, and
  the per-run collections handed to the metric engine.
*/
module Data {
  import opened Wrappers
  import opened Keys

  /** An embedding vector; its contents are opaque to the evaluator. */
  type Embedding = seq<real>

  /** A similarity score (a float in the source; only its order is used). */
  type Score = real

  /** The similarity function, applied to one query row and one candidate row. */
  type Similarity = (Embedding, Embedding) -> Score

  /** Candidate index (as a string) to predicted score. */
  type ScoreMap = map<string, Score>

  /** Candidate index (as a string) to binary relevance label. */
  type JudgmentMap = map<string, int>

  /**
    A sample's query: one string, a list of alternative phrasings, or a
    value of some other type (which the batched path rejects).
  */
  datatype Query = Text(text: string) | TextList(texts: seq<string>) | NonText

  /** One evaluation instance. */
  datatype Sample = Sample(query: Query, positive: seq<string>, candidates: seq<string>)

  datatype EvalError =
    | EmptyQueryEmbedding    // rerank was given a query block without rows
    | UnsupportedQueryType   // the query is neither a string nor a list of strings
    | NoSamples              // the batched path indexes the first sample of an empty list
    | UnboundQueryEmbedding  // a list query reached the individual path before any string query
    | MissingData            // the dataset has no entry for a requested language or split

  /** The results (scores) and qrels (judgments) collections of one run, keyed by query id. */
  datatype RunMaps = RunMaps(results: map<string, ScoreMap>, qrels: map<string, JudgmentMap>)

  /** The number of query rows a sample contributes: the list length, or one. */
  function NumSubqueries(q: Query): nat {
    if q.TextList? then |q.texts| else 1
  }

  /** The query texts a sample contributes to encoding. */
  function QueryTexts(q: Query): (ts: seq<string>)
    ensures !q.NonText? ==> |ts| == NumSubqueries(q)
  {
    match q
    case Text(t) => [t]
    case TextList(ts) => ts
    case NonText => []
  }

  predicate SameKind(a: Query, b: Query) {
    (a.Text? && b.Text?) || (a.TextList? && b.TextList?) || (a.NonText? && b.NonText?)
  }

  /** Every query has the kind of the first one (mixing kinds is unsupported). */
  predicate Homogeneous(samples: seq<Sample>) {
    forall k :: 0 <= k < |samples| ==> SameKind(samples[k].query, samples[0].query)
  }

  /** The relevance judgments of one sample (see JudgeLabels). */
  function Judge(s: Sample): JudgmentMap {
    Enumerate(Labels(s))
  }

  /** `1 if doc in positive else 0` for every candidate, in order. */
  function Labels(s: Sample): seq<int> {
    seq(|s.candidates|, i requires 0 <= i < |s.candidates| => if s.candidates[i] in s.positive then 1 else 0)
  }

  /**
    One judgment per candidate, keyed "0" .. "C-1": candidate i is
    labelled 1 when its text is among the positives and 0 otherwise.
  */
  lemma JudgeLabels(s: Sample)
    ensures Judge(s).Keys == IndexKeys(|s.candidates|)
    ensures forall i {:trigger s.candidates[i]} :: 0 <= i < |s.candidates| ==>
              (Judge(s)[Str(i)] == 1 <==> s.candidates[i] in s.positive)
              && (Judge(s)[Str(i)] == 0 || Judge(s)[Str(i)] == 1)
  {
    var labels := Labels(s);
    EnumerateContents(labels);
    forall i | 0 <= i < |s.candidates|
      ensures Judge(s)[Str(i)] == labels[i]
    {
    }
  }

  /** The keys labelled relevant are exactly the indices of candidates that are positives. */
  lemma RelevantKeys(s: Sample)
    ensures (set key | key in Judge(s) && Judge(s)[key] == 1)
         == (set i | 0 <= i < |s.candidates| && s.candidates[i] in s.positive :: Str(i))
  {
    JudgeLabels(s);
    var j := Judge(s);
    forall key | key in j && j[key] == 1
      ensures exists i :: 0 <= i < |s.candidates| && s.candidates[i] in s.positive && key == Str(i)
    {
      var i :| 0 <= i < |s.candidates| && key == Str(i);
    }
  }

  /** Positives outside the candidate list do not affect the judgments. */
  lemma JudgeIgnoresPositivesOutsideCandidates(s: Sample, t: Sample)
    requires s.candidates == t.candidates
    requires forall c :: c in s.candidates ==> (c in s.positive <==> c in t.positive)
    ensures Judge(s) == Judge(t)
  {
    JudgeLabels(s);
    JudgeLabels(t);
    var js, jt := Judge(s), Judge(t);
    forall key | key in js ensures js[key] == jt[key] {
      var i :| 0 <= i < |s.candidates| && key == Str(i);
      assert s.candidates[i] in s.candidates;
    }
  }

  /** Three candidates with the middle one positive: `{"0": 0, "1": 1, "2": 0}`. */
  lemma JudgeExample(q: Query)
    ensures Judge(Sample(q, ["b"], ["a", "b", "c"])) == map["0" := 0, "1" := 1, "2" := 0]
  {
    var s := Sample(q, ["b"], ["a", "b", "c"]);
    JudgeLabels(s);
    assert Str(0) == "0" && Str(1) == "1" && Str(2) == "2";
    assert IndexKeys(3) == {"0", "1", "2"};
    assert s.candidates[0] !in s.positive && s.candidates[1] in s.positive && s.candidates[2] !in s.positive;
  }

  /** The judgments of every sample, in order. */
  function Judgments(samples: seq<Sample>): (js: seq<JudgmentMap>)
    ensures |js| == |samples| && forall k :: 0 <= k < |samples| ==> js[k] == Judge(samples[k])
  {
    seq(|samples|, k requires 0 <= k < |samples| => Judge(samples[k]))
  }

  predicate AllSucceed<T, E>(rs: seq<Result<T, E>>) {
    forall k :: 0 <= k < |rs| ==> rs[k].Success?
  }

  /** One more success extends a run of successes. */
  lemma AllSucceedSnoc<T, E>(rs: seq<Result<T, E>>, k: nat)
    requires k < |rs| && AllSucceed(rs[..k]) && rs[k].Success?
    ensures AllSucceed(rs[..k + 1])
  {
    assert rs[..k + 1] == rs[..k] + [rs[k]];
  }

  /** The score map of every successful rerank (empty for a failed one). */
  function ScoreMaps(rs: seq<Result<ScoreMap, EvalError>>): (vs: seq<ScoreMap>)
    ensures |vs| == |rs|
    ensures forall k :: 0 <= k < |rs| && rs[k].Success? ==> rs[k] == Success(vs[k])
  {
    seq(|rs|, k requires 0 <= k < |rs| => if rs[k].Success? then rs[k].value else map[])
  }

  /** Storing one more successful rerank extends the results built so far. */
  lemma ResultsStep(ids: seq<string>, rs: seq<Result<ScoreMap, EvalError>>, k: nat,
                    results: map<string, ScoreMap>, key: string, scored: Result<ScoreMap, EvalError>)
    requires |ids| == |rs| && k < |rs|
    requires results == Collect(ids[..k], ScoreMaps(rs)[..k])
    requires key == ids[k] && scored == rs[k] && scored.Success?
    ensures results[key := scored.value] == Collect(ids[..k + 1], ScoreMaps(rs)[..k + 1])
  {
    CollectStep(ids, ScoreMaps(rs), k, results, key);
  }

  /** Storing the next sample's judgments extends the qrels built so far. */
  lemma QrelsStep(ids: seq<string>, samples: seq<Sample>, k: nat, qrels: map<string, JudgmentMap>, key: string)
    requires |ids| == |samples| && k < |samples|
    requires qrels == Collect(ids[..k], Judgments(samples)[..k])
    requires key == ids[k]
    ensures qrels[key := Judge(samples[k])] == Collect(ids[..k + 1], Judgments(samples)[..k + 1])
  {
    CollectStep(ids, Judgments(samples), k, qrels, key);
  }

  /** The position of the first failure. */
  function FirstFailure<T, E>(rs: seq<Result<T, E>>): (k: nat)
    requires !AllSucceed(rs)
    ensures k < |rs| && rs[k].Failure?
    ensures forall j :: 0 <= j < k ==> rs[j].Success?
  {
    if rs[0].Failure? then 0 else 1 + FirstFailure(rs[1..])
  }

  /**
    One evaluation loop over the samples: sample k's scores and judgments
    are stored under ids[k]; the first failing rerank aborts the loop with
    its error.
  */
  function AssembleRun(ids: seq<string>, reranks: seq<Result<ScoreMap, EvalError>>, judgments: seq<JudgmentMap>)
    : (r: Result<RunMaps, EvalError>)
    requires |ids| == |reranks| == |judgments|
    ensures r.Success? <==> AllSucceed(reranks)
    ensures r.Failure? ==> r.error == reranks[FirstFailure(reranks)].error
  {
    if AllSucceed(reranks) then
      Success(RunMaps(Collect(ids, ScoreMaps(reranks)), Collect(ids, judgments)))
    else
      Failure(reranks[FirstFailure(reranks)].error)
  }

  /**
    Results and qrels are written under the same id in the same
    iteration, so a completed run has the same ids in both; with distinct
    ids every sample's scores and judgments sit under its own id.
  */
  lemma AssembleRunContents(ids: seq<string>, reranks: seq<Result<ScoreMap, EvalError>>, judgments: seq<JudgmentMap>)
    requires |ids| == |reranks| == |judgments|
    requires AllSucceed(reranks)
    ensures AssembleRun(ids, reranks, judgments).value.results.Keys == set x | x in ids
    ensures AssembleRun(ids, reranks, judgments).value.qrels.Keys == set x | x in ids
    ensures Distinct(ids) ==>
              forall k :: 0 <= k < |ids| ==>
                && reranks[k] == Success(AssembleRun(ids, reranks, judgments).value.results[ids[k]])
                && AssembleRun(ids, reranks, judgments).value.qrels[ids[k]] == judgments[k]
  {
    CollectContents(ids, ScoreMaps(reranks));
    CollectContents(ids, judgments);
  }
}

=== FILE: driver.dfy ===
/**
  The dataset driver `MIRACLReranking.evaluate`: one evaluator run per
  language of a multilingual dataset, or a single run on a monolingual
  one.

  The evaluator run on one sample list (constructing the evaluator and
  calling it with the model) is a parameter: which evaluation path it
  takes and how the metric engine scores its output is decided outside
  the driver. Dataset loading is left out; the driver is given the loaded
  dataset.
*/
module Driver {
  import opened Wrappers
  import opened Keys
  import opened Data
  import opened Metrics

  /** A loaded dataset: per language and split, or per split only. */
  datatype Dataset =
    | Multilingual(langs: seq<string>, byLang: map<string, map<string, seq<Sample>>>)
    | Monolingual(bySplit: map<string, seq<Sample>>)

  /** The driver's output: metrics per language, or the metrics of the single run. */
  datatype TaskScores = PerLanguage(byLanguage: map<string, MetricMap>) | Single(metrics: MetricMap)

  /** One evaluator run on a sample list. */
  type Evaluator = seq<Sample> -> Result<MetricMap, EvalError>

  /** The run for one language: `self.dataset[lang][split]` fails when the language or its split is missing. */
  function LanguageResult(evaluator: Evaluator, byLang: map<string, map<string, seq<Sample>>>, split: string, lang: string)
    : (r: Result<MetricMap, EvalError>)
    ensures !(lang in byLang && split in byLang[lang]) ==> r == Failure(MissingData)
    ensures lang in byLang && split in byLang[lang] ==> r == evaluator(byLang[lang][split])
  {
    if lang in byLang && split in byLang[lang] then evaluator(byLang[lang][split]) else Failure(MissingData)
  }

  /** Every language's run, in the order of the language list. */
  function LanguageResults(evaluator: Evaluator, byLang: map<string, map<string, seq<Sample>>>, split: string, langs: seq<string>)
    : (rs: seq<Result<MetricMap, EvalError>>)
    ensures |rs| == |langs|
    ensures forall i :: 0 <= i < |langs| ==> rs[i] == LanguageResult(evaluator, byLang, split, langs[i])
  {
    seq(|langs|, i requires 0 <= i < |langs| => LanguageResult(evaluator, byLang, split, langs[i]))
  }

  /** The metrics of every successful run (empty for a failed one). */
  function MetricValues(rs: seq<Result<MetricMap, EvalError>>): (vs: seq<MetricMap>)
    ensures |vs| == |rs|
    ensures forall i :: 0 <= i < |rs| && rs[i].Success? ==> rs[i] == Success(vs[i])
  {
    seq(|rs|, i requires 0 <= i < |rs| => if rs[i].Success? then rs[i].value else map[])
  }

  /**
    The multilingual driver: the first failing language, in list order,
    ends the evaluation with its error; otherwise every language's metrics
    are stored under its code.
  */
  function EvaluateLanguages(evaluator: Evaluator, byLang: map<string, map<string, seq<Sample>>>, split: string, langs: seq<string>)
    : Result<map<string, MetricMap>, EvalError>
  {
    var rs := LanguageResults(evaluator, byLang, split, langs);
    if AllSucceed(rs) then Success(Collect(langs, MetricValues(rs)))
    else Failure(rs[FirstFailure(rs)].error)
  }

  /**
    The multilingual driver completes exactly when every listed language
    has the split and its run completes; it then maps exactly the listed
    languages, each to the metrics of its own run. When it fails, the
    error is that of the first failing language.
  */
  lemma EvaluateLanguagesContents(evaluator: Evaluator, byLang: map<string, map<string, seq<Sample>>>, split: string, langs: seq<string>)
    ensures EvaluateLanguages(evaluator, byLang, split, langs).Success? <==>
              forall i :: 0 <= i < |langs| ==> LanguageResult(evaluator, byLang, split, langs[i]).Success?
    ensures EvaluateLanguages(evaluator, byLang, split, langs).Success? ==>
              EvaluateLanguages(evaluator, byLang, split, langs).value.Keys == set l | l in langs
    ensures EvaluateLanguages(evaluator, byLang, split, langs).Success? ==>
              forall i :: 0 <= i < |langs| ==>
                LanguageResult(evaluator, byLang, split, langs[i]) == Success(EvaluateLanguages(evaluator, byLang, split, langs).value[langs[i]])
    ensures EvaluateLanguages(evaluator, byLang, split, langs).Failure? ==>
              exists i :: 0 <= i < |langs|
                && (forall j :: 0 <= j < i ==> LanguageResult(evaluator, byLang, split, langs[j]).Success?)
                && LanguageResult(evaluator, byLang, split, langs[i]) == Failure(EvaluateLanguages(evaluator, byLang, split, langs).error)
  {
    var rs := LanguageResults(evaluator, byLang, split, langs);
    var vs := MetricValues(rs);
    if AllSucceed(rs) {
      CollectContents(langs, vs);
      forall i, j | 0 <= i < |langs| && 0 <= j < |langs| && langs[i] == langs[j] ensures vs[i] == vs[j] {
        assert rs[i] == rs[j];
      }
      CollectConsistent(langs, vs);
    } else {
      var i := FirstFailure(rs);
      assert LanguageResult(evaluator, byLang, split, langs[i]) == Failure(EvaluateLanguages(evaluator, byLang, split, langs).error);
    }
  }

  /** Running the languages in another order, or listing one twice, gives the same completed result. */
  lemma EvaluateOrderInsensitive(evaluator: Evaluator, byLang: map<string, map<string, seq<Sample>>>, split: string,
                                 langs1: seq<string>, langs2: seq<string>)
    requires (set l | l in langs1) == (set l | l in langs2)
    ensures EvaluateLanguages(evaluator, byLang, split, langs1).Success? == EvaluateLanguages(evaluator, byLang, split, langs2).Success?
    ensures EvaluateLanguages(evaluator, byLang, split, langs1).Success? ==>
              EvaluateLanguages(evaluator, byLang, split, langs1) == EvaluateLanguages(evaluator, byLang, split, langs2)
  {
    var r1, r2 := EvaluateLanguages(evaluator, byLang, split, langs1), EvaluateLanguages(evaluator, byLang, split, langs2);
    EvaluateLanguagesContents(evaluator, byLang, split, langs1);
    EvaluateLanguagesContents(evaluator, byLang, split, langs2);
    var listed1, listed2 := set l | l in langs1, set l | l in langs2;
    if r1.Success? {
      forall j | 0 <= j < |langs2| ensures LanguageResult(evaluator, byLang, split, langs2[j]).Success? {
        assert langs2[j] in listed2;
        var i :| 0 <= i < |langs1| && langs1[i] == langs2[j];
      }
      forall l | l in r1.value.Keys ensures l in r2.value && r1.value[l] == r2.value[l] {
        var i :| 0 <= i < |langs1| && langs1[i] == l;
        assert l in listed2;
        var j :| 0 <= j < |langs2| && langs2[j] == l;
      }
      assert r1.value == r2.value;
    } else if r2.Success? {
      forall i | 0 <= i < |langs1| ensures LanguageResult(evaluator, byLang, split, langs1[i]).Success? {
        assert langs1[i] in listed1;
        var j :| 0 <= j < |langs2| && langs2[j] == langs1[i];
      }
    }
  }

  /**
    No state is shared across languages: a language's metrics depend on
    its own split only, whatever the other languages hold.
  */
  lemma LanguagesIndependent(evaluator: Evaluator, byLang1: map<string, map<string, seq<Sample>>>,
                             byLang2: map<string, map<string, seq<Sample>>>, split: string, langs: seq<string>, lang: string)
    requires lang in langs
    requires lang in byLang1 && lang in byLang2 && split in byLang1[lang] && split in byLang2[lang]
    requires byLang1[lang][split] == byLang2[lang][split]
    requires EvaluateLanguages(evaluator, byLang1, split, langs).Success? && EvaluateLanguages(evaluator, byLang2, split, langs).Success?
    ensures lang in EvaluateLanguages(evaluator, byLang1, split, langs).value
    ensures lang in EvaluateLanguages(evaluator, byLang2, split, langs).value
    ensures EvaluateLanguages(evaluator, byLang1, split, langs).value[lang] == EvaluateLanguages(evaluator, byLang2, split, langs).value[lang]
    ensures Success(EvaluateLanguages(evaluator, byLang1, split, langs).value[lang]) == evaluator(byLang1[lang][split])
  {
    EvaluateLanguagesContents(evaluator, byLang1, split, langs);
    EvaluateLanguagesContents(evaluator, byLang2, split, langs);
    var i :| 0 <= i < |langs| && langs[i] == lang;
  }

  /** Storing one more language's metrics extends the map built so far. */
  lemma LanguageStep(evaluator: Evaluator, byLang: map<string, map<string, seq<Sample>>>, split: string, langs: seq<string>,
                     i: nat, scores: map<string, MetricMap>, scored: Result<MetricMap, EvalError>)
    requires i < |langs|
    requires scores == Collect(langs[..i], MetricValues(LanguageResults(evaluator, byLang, split, langs))[..i])
    requires scored == LanguageResult(evaluator, byLang, split, langs[i]) && scored.Success?
    ensures scores[langs[i] := scored.value] == Collect(langs[..i + 1], MetricValues(LanguageResults(evaluator, byLang, split, langs))[..i + 1])
  {
    CollectStep(langs, MetricValues(LanguageResults(evaluator, byLang, split, langs)), i, scores, langs[i]);
  }

  /** The first failing language decides the outcome. */
  lemma FirstFailingLanguage(evaluator: Evaluator, byLang: map<string, map<string, seq<Sample>>>, split: string, langs: seq<string>, i: nat)
    requires i < |langs|
    requires AllSucceed(LanguageResults(evaluator, byLang, split, langs)[..i])
    requires LanguageResult(evaluator, byLang, split, langs[i]).Failure?
    ensures EvaluateLanguages(evaluator, byLang, split, langs) == Failure(LanguageResult(evaluator, byLang, split, langs[i]).error)
  {
    var rs := LanguageResults(evaluator, byLang, split, langs);
    assert forall j :: 0 <= j < i ==> rs[j] == rs[..i][j];
    assert FirstFailure(rs) == i;
  }

  /**
    The loop over `self.langs`: look up the language's split, run the
    evaluator on it and store its metrics under the language code.
  */
  method EvaluateMultilingual(evaluator: Evaluator, byLang: map<string, map<string, seq<Sample>>>, split: string, langs: seq<string>)
    returns (r: Result<map<string, MetricMap>, EvalError>)
    ensures r == EvaluateLanguages(evaluator, byLang, split, langs)
  {
    ghost var rs := LanguageResults(evaluator, byLang, split, langs);
    var scores: map<string, MetricMap> := map[];
    var i := 0;
    while i < |langs|
      invariant 0 <= i <= |langs|
      invariant AllSucceed(rs[..i])
      invariant scores == Collect(langs[..i], MetricValues(rs)[..i])
    {
      var lang := langs[i];
      if !(lang in byLang && split in byLang[lang]) {
        FirstFailingLanguage(evaluator, byLang, split, langs, i);
        return Failure(MissingData);
      }
      var dataSplit := byLang[lang][split];
      var scored := evaluator(dataSplit);
      if scored.Failure? {
        FirstFailingLanguage(evaluator, byLang, split, langs, i);
        return Failure(scored.error);
      }
      AllSucceedSnoc(rs, i);
      LanguageStep(evaluator, byLang, split, langs, i, scores, scored);
      scores := scores[lang := scored.value];
      i := i + 1;
    }
    assert langs[..i] == langs && MetricValues(rs)[..i] == MetricValues(rs) && rs[..i] == rs;
    r := Success(scores);
  }

  /**
    `evaluate`: per-language metrics for a multilingual dataset, the one
    run's metrics for a monolingual one; a missing split or a failed run
    ends the evaluation with its error.
  */
  function Evaluate(evaluator: Evaluator, data: Dataset, split: string): (r: Result<TaskScores, EvalError>)
    ensures data.Monolingual? ==> (r.Success? <==> split in data.bySplit && evaluator(data.bySplit[split]).Success?)
    ensures data.Monolingual? && r.Success? ==> r.value == Single(evaluator(data.bySplit[split]).value)
    ensures data.Monolingual? && split !in data.bySplit ==> r == Failure(MissingData)
    ensures data.Monolingual? && split in data.bySplit && evaluator(data.bySplit[split]).Failure? ==>
              r == Failure(evaluator(data.bySplit[split]).error)
    ensures data.Multilingual? && r.Failure? ==>
              EvaluateLanguages(evaluator, data.byLang, split, data.langs).Failure?
              && r == Failure(EvaluateLanguages(evaluator, data.byLang, split, data.langs).error)
    ensures data.Multilingual? ==>
              (r.Success? <==> forall i :: 0 <= i < |data.langs| ==> LanguageResult(evaluator, data.byLang, split, data.langs[i]).Success?)
    ensures data.Multilingual? && r.Success? ==>
              r.value.PerLanguage? && r.value.byLanguage.Keys == set l | l in data.langs
    ensures data.Multilingual? && r.Success? ==>
              r.value == PerLanguage(EvaluateLanguages(evaluator, data.byLang, split, data.langs).value)
    ensures data.Multilingual? && r.Success? ==>
              forall i :: 0 <= i < |data.langs| ==>
                data.langs[i] in r.value.byLanguage
                && LanguageResult(evaluator, data.byLang, split, data.langs[i]) == Success(r.value.byLanguage[data.langs[i]])
  {
    match data
    case Multilingual(langs, byLang) =>
      EvaluateLanguagesContents(evaluator, byLang, split, langs);
      var scores := EvaluateLanguages(evaluator, byLang, split, langs);
      if scores.Failure? then Failure(scores.error) else Success(PerLanguage(scores.value))
    case Monolingual(bySplit) =>
      if split !in bySplit then Failure(MissingData)
      else
        var scored := evaluator(bySplit[split]);
        if scored.Failure? then Failure(scored.error) else Success(Single(scored.value))
  }
}

=== FILE: encoding.dfy ===
/**
  The encoder capability and how each evaluation path picks its query and
  corpus encoders.

  The encoder is modelled as a function of one text: a batch is encoded
  into one row per text, in order, so the batch size only affects
  scheduling.
*/
module Encoding {
  import opened Wrappers
  import opened Data

  /** A model with a generic `encode` and optional specialised encoders. */
  datatype Encoder = Encoder(
    encode: string -> Embedding,
    encodeQueries: Option<string -> Embedding>,
    encodeCorpus: Option<string -> Embedding>)

  /** The `isinstance(model, EncoderWithQueryCorpusEncode)` test. */
  predicate HasQueryCorpusEncode(m: Encoder) {
    m.encodeQueries.Some? && m.encodeCorpus.Some?
  }

  /** The batched path's query encoder: specialised only when both specialised encoders exist. */
  function BatchedQueryEncoder(m: Encoder): string -> Embedding {
    if HasQueryCorpusEncode(m) then m.encodeQueries.value else m.encode
  }

  function BatchedCorpusEncoder(m: Encoder): string -> Embedding {
    if HasQueryCorpusEncode(m) then m.encodeCorpus.value else m.encode
  }

  /** The individual path's query encoder: `hasattr` is checked per method. */
  function IndividualQueryEncoder(m: Encoder): string -> Embedding {
    if m.encodeQueries.Some? then m.encodeQueries.value else m.encode
  }

  function IndividualCorpusEncoder(m: Encoder): string -> Embedding {
    if m.encodeCorpus.Some? then m.encodeCorpus.value else m.encode
  }

  /**
    The encoder choice the batched path's comment describes: each
    specialised encoder whenever it exists. Offering the individual path's
    choices as both specialised encoders makes the batched path use them.
  */
  function Normalised(m: Encoder): (n: Encoder)
    ensures HasQueryCorpusEncode(n)
    ensures BatchedQueryEncoder(n) == IndividualQueryEncoder(m) && BatchedCorpusEncoder(n) == IndividualCorpusEncoder(m)
    ensures IndividualQueryEncoder(n) == IndividualQueryEncoder(m) && IndividualCorpusEncoder(n) == IndividualCorpusEncoder(m)
  {
    Encoder(m.encode, Some(IndividualQueryEncoder(m)), Some(IndividualCorpusEncoder(m)))
  }

  /** A model offering both specialised encoders or neither. */
  predicate ConsistentEncoder(m: Encoder) {
    HasQueryCorpusEncode(m) || (m.encodeQueries.None? && m.encodeCorpus.None?)
  }

  /**
    Both paths choose the same encoders when the model is consistent. A
    model with only one specialised encoder is used with `encode` on the
    batched path but with that encoder on the individual one.
  */
  lemma EncoderChoiceAgreement(m: Encoder)
    ensures ConsistentEncoder(m) ==>
              BatchedQueryEncoder(m) == IndividualQueryEncoder(m)
              && BatchedCorpusEncoder(m) == IndividualCorpusEncoder(m)
    ensures m.encodeQueries.Some? && m.encodeCorpus.None? ==>
              BatchedQueryEncoder(m) == m.encode && IndividualQueryEncoder(m) == m.encodeQueries.value
    ensures m.encodeQueries.None? && m.encodeCorpus.Some? ==>
              BatchedCorpusEncoder(m) == m.encode && IndividualCorpusEncoder(m) == m.encodeCorpus.value
  {
  }

  /** Encoding a list of texts: one row per text, in order. */
  function Encode(f: string -> Embedding, texts: seq<string>): (rows: seq<Embedding>)
    ensures |rows| == |texts|
    ensures forall i :: 0 <= i < |texts| ==> rows[i] == f(texts[i])
  {
    seq(|texts|, i requires 0 <= i < |texts| => f(texts[i]))
  }
}

=== FILE: individual.dfy ===
/**
  `compute_metrics_individual`: every sample is encoded and reranked on
  its own and stored under its position in the sample list as query id.

  The loop in the source encodes only samples whose query is a single
  string; for any other query it reuses the embeddings the previous
  string sample left behind, or has none on the first sample. That is
  modelled as written (IndividualAsWritten) next to the corrected run
  (IndividualRun), which rejects non-string queries with an error.
*/
module Individual {
  import opened Wrappers
  import opened Keys
  import opened Partition
  import opened Data
  import opened Encoding
  import opened Scoring
  import opened Batched

  /** Every query is a single string, the only kind this path encodes. */
  predicate AllText(samples: seq<Sample>) {
    forall k :: 0 <= k < |samples| ==> samples[k].query.Text?
  }

  /**
    The individual run: each sample reranked on the encodings of its own
    query string and candidates, under the id `str(i)`; a sample whose
    query is not a string is rejected.
  */
  function IndividualRun(model: Encoder, sim: Similarity, samples: seq<Sample>): Result<RunMaps, EvalError> {
    if !AllText(samples) then Failure(UnsupportedQueryType)
    else AssembleRun(IndexIds(|samples|),
                     OwnReranks(sim, IndividualQueryEncoder(model), IndividualCorpusEncoder(model), samples),
                     Judgments(samples))
  }

  /**
    The individual run fails only on a non-string query: one query row
    never leaves `rerank` without a row to pool over.
  */
  lemma IndividualRunOutcome(model: Encoder, sim: Similarity, samples: seq<Sample>)
    ensures IndividualRun(model, sim, samples).Success? <==> AllText(samples)
    ensures IndividualRun(model, sim, samples).Failure? ==> IndividualRun(model, sim, samples).error == UnsupportedQueryType
  {
    if AllText(samples) {
      var rs := OwnReranks(sim, IndividualQueryEncoder(model), IndividualCorpusEncoder(model), samples);
      forall k | 0 <= k < |samples| ensures rs[k].Success? {
        assert NumSubqueries(samples[k].query) == 1;
      }
    }
  }

  /**
    A single query row: every candidate's score is that row's similarity
    to the candidate, under the candidate's index.
  */
  lemma OneQueryRowScores(sim: Similarity, q: Embedding, docsEmb: seq<Embedding>)
    ensures Rerank(sim, [q], docsEmb).Success?
    ensures Rerank(sim, [q], docsEmb).value.Keys == IndexKeys(|docsEmb|)
    ensures forall c {:trigger docsEmb[c]} :: 0 <= c < |docsEmb| ==>
              Str(c) in Rerank(sim, [q], docsEmb).value && Rerank(sim, [q], docsEmb).value[Str(c)] == sim(q, docsEmb[c])
  {
    RerankScores(sim, [q], docsEmb);
    forall c | 0 <= c < |docsEmb|
      ensures Str(c) in Rerank(sim, [q], docsEmb).value && Rerank(sim, [q], docsEmb).value[Str(c)] == sim(q, docsEmb[c])
    {
      SingleQueryRowScores(sim, q, docsEmb, c);
    }
  }

  /** Sample k's entries in a completed individual run: its own rerank and its own judgments, under `str(k)`. */
  lemma IndividualEntry(model: Encoder, sim: Similarity, samples: seq<Sample>, k: nat)
    requires AllText(samples) && k < |samples|
    ensures IndividualRun(model, sim, samples).Success?
    ensures Str(k) in IndividualRun(model, sim, samples).value.results
    ensures Str(k) in IndividualRun(model, sim, samples).value.qrels
    ensures IndividualRun(model, sim, samples).value.qrels[Str(k)] == Judge(samples[k])
    ensures Rerank(sim, [IndividualQueryEncoder(model)(samples[k].query.text)],
                   Encode(IndividualCorpusEncoder(model), samples[k].candidates))
         == Success(IndividualRun(model, sim, samples).value.results[Str(k)])
  {
    var qf, cf := IndividualQueryEncoder(model), IndividualCorpusEncoder(model);
    var rs := OwnReranks(sim, qf, cf, samples);
    var ids := IndexIds(|samples|);
    IndividualRunOutcome(model, sim, samples);
    IndexIdsDistinct(|samples|);
    AssembleRunContents(ids, rs, Judgments(samples));
    assert ids[k] == Str(k);
    assert Encode(qf, QueryTexts(samples[k].query)) == [qf(samples[k].query.text)];
  }

  /**
    A completed individual run has the ids "0".."n-1" in both results and
    qrels; sample k's judgments are stored under `str(k)` with the same
    document keys as its scores, and each score is the similarity of the
    query string's embedding to that candidate's embedding.
  */
  lemma IndividualRunContents(model: Encoder, sim: Similarity, samples: seq<Sample>)
    requires AllText(samples)
    ensures IndividualRun(model, sim, samples).Success?
    ensures IndividualRun(model, sim, samples).value.results.Keys == IndexKeys(|samples|)
    ensures IndividualRun(model, sim, samples).value.qrels.Keys == IndexKeys(|samples|)
    ensures forall k {:trigger samples[k]} :: 0 <= k < |samples| ==>
              var run := IndividualRun(model, sim, samples).value;
              && run.qrels[Str(k)] == Judge(samples[k])
              && run.results[Str(k)].Keys == run.qrels[Str(k)].Keys
              && forall c {:trigger samples[k].candidates[c]} :: 0 <= c < |samples[k].candidates| ==>
                   Str(c) in run.results[Str(k)]
                   && run.results[Str(k)][Str(c)]
                   == sim(IndividualQueryEncoder(model)(samples[k].query.text),
                          IndividualCorpusEncoder(model)(samples[k].candidates[c]))
  {
    var qf, cf := IndividualQueryEncoder(model), IndividualCorpusEncoder(model);
    var ids := IndexIds(|samples|);
    IndividualRunOutcome(model, sim, samples);
    IndexIdsDistinct(|samples|);
    AssembleRunContents(ids, OwnReranks(sim, qf, cf, samples), Judgments(samples));
    var run := IndividualRun(model, sim, samples).value;
    forall k | 0 <= k < |samples|
      ensures run.qrels[Str(k)] == Judge(samples[k])
      ensures run.results[Str(k)].Keys == run.qrels[Str(k)].Keys
      ensures forall c :: 0 <= c < |samples[k].candidates| ==>
                Str(c) in run.results[Str(k)] && run.results[Str(k)][Str(c)] == sim(qf(samples[k].query.text), cf(samples[k].candidates[c]))
    {
      IndividualEntry(model, sim, samples, k);
      var docsEmb := Encode(cf, samples[k].candidates);
      OneQueryRowScores(sim, qf(samples[k].query.text), docsEmb);
      JudgeLabels(samples[k]);
      forall c | 0 <= c < |samples[k].candidates|
        ensures Str(c) in run.results[Str(k)] && run.results[Str(k)][Str(c)] == sim(qf(samples[k].query.text), cf(samples[k].candidates[c]))
      {
        assert docsEmb[c] == cf(samples[k].candidates[c]);
      }
    }
  }

  /** One more string query extends a run of string queries. */
  lemma AllTextSnoc(samples: seq<Sample>, k: nat)
    requires k < |samples| && AllText(samples[..k]) && samples[k].query.Text?
    ensures AllText(samples[..k + 1])
  {
    assert samples[..k + 1] == samples[..k] + [samples[k]];
  }

  /** One step of the loop: sample k's own rerank, on its string query and candidates. */
  lemma RerankStep(sim: Similarity, qf: string -> Embedding, cf: string -> Embedding, samples: seq<Sample>, k: nat,
                   queryEmb: seq<Embedding>, docsEmb: seq<Embedding>)
    requires k < |samples| && samples[k].query.Text?
    requires queryEmb == Encode(qf, [samples[k].query.text]) && docsEmb == Encode(cf, samples[k].candidates)
    ensures Rerank(sim, queryEmb, docsEmb).Success?
    ensures Rerank(sim, queryEmb, docsEmb) == OwnReranks(sim, qf, cf, samples)[k]
  {
  }

  /**
    The loop of `compute_metrics_individual`, with the non-string query
    rejected instead of scored on stale embeddings: encode the sample's
    query string and its candidates, rerank, and store scores and
    judgments under `str(i)`.
  */
  method ComputeMetricsIndividual(model: Encoder, sim: Similarity, samples: seq<Sample>) returns (r: Result<RunMaps, EvalError>)
    ensures r == IndividualRun(model, sim, samples)
  {
    var encodeQueries := IndividualQueryEncoder(model);
    var encodeCorpus := IndividualCorpusEncoder(model);
    ghost var ids := IndexIds(|samples|);
    ghost var reranks := OwnReranks(sim, encodeQueries, encodeCorpus, samples);
    ghost var judgments := Judgments(samples);
    var results: map<string, ScoreMap> := map[];
    var qrels: map<string, JudgmentMap> := map[];
    var i := 0;
    while i < |samples|
      invariant 0 <= i <= |samples|
      invariant AllText(samples[..i])
      invariant AllSucceed(reranks[..i])
      invariant results == Collect(ids[..i], ScoreMaps(reranks)[..i])
      invariant qrels == Collect(ids[..i], judgments[..i])
    {
      var instance := samples[i];
      var query := instance.query;
      if !query.Text? {
        return Failure(UnsupportedQueryType);
      }
      var docs := instance.candidates;
      var queryEmb := Encode(encodeQueries, [query.text]);
      var docsEmb := Encode(encodeCorpus, docs);
      RerankStep(sim, encodeQueries, encodeCorpus, samples, i, queryEmb, docsEmb);
      AllTextSnoc(samples, i);
      var fakeQid := Str(i);
      var scored := Rerank(sim, queryEmb, docsEmb);
      AllSucceedSnoc(reranks, i);
      ResultsStep(ids, reranks, i, results, fakeQid, scored);
      QrelsStep(ids, samples, i, qrels, fakeQid);
      results := results[fakeQid := scored.value];
      qrels := qrels[fakeQid := Judge(instance)];
      i := i + 1;
    }
    assert ids[..i] == ids && ScoreMaps(reranks)[..i] == ScoreMaps(reranks) && judgments[..i] == judgments;
    assert reranks[..i] == reranks && samples[..i] == samples;
    r := Success(RunMaps(results, qrels));
  }

  /**
    The embeddings the loop body as written holds when it reaches sample
    k: the sample's own when its query is a string, otherwise those left
    bound by the closest earlier string sample, and none when there is no
    such sample.
  */
  function BoundEmbeddings(qf: string -> Embedding, cf: string -> Embedding, samples: seq<Sample>, k: nat)
    : (bound: Option<(seq<Embedding>, seq<Embedding>)>)
    requires k < |samples|
    ensures bound.None? <==> forall j :: 0 <= j <= k ==> !samples[j].query.Text?
    ensures bound.Some? ==> |bound.value.0| == 1
    ensures samples[k].query.Text? ==>
              bound == Some((Encode(qf, [samples[k].query.text]), Encode(cf, samples[k].candidates)))
    ensures 0 < k && !samples[k].query.Text? ==> bound == BoundEmbeddings(qf, cf, samples, k - 1)
    decreases k
  {
    if samples[k].query.Text? then Some((Encode(qf, [samples[k].query.text]), Encode(cf, samples[k].candidates)))
    else if k == 0 then None
    else BoundEmbeddings(qf, cf, samples, k - 1)
  }

  /** Every sample reranked on whatever embeddings are bound when the loop reaches it. */
  function StaleReranks(sim: Similarity, qf: string -> Embedding, cf: string -> Embedding, samples: seq<Sample>)
    : (rs: seq<Result<ScoreMap, EvalError>>)
    requires |samples| == 0 || samples[0].query.Text?
    ensures |rs| == |samples|
    ensures forall k :: 0 <= k < |samples| ==>
              BoundEmbeddings(qf, cf, samples, k).Some?
              && rs[k] == Rerank(sim, BoundEmbeddings(qf, cf, samples, k).value.0, BoundEmbeddings(qf, cf, samples, k).value.1)
  {
    seq(|samples|, k requires 0 <= k < |samples| =>
      var bound := BoundEmbeddings(qf, cf, samples, k);
      Rerank(sim, bound.value.0, bound.value.1))
  }

  /**
    `compute_metrics_individual` as written: a first sample whose query
    is not a string reaches `rerank` with no embeddings bound; otherwise
    every sample is scored on the embeddings bound at that point and
    judged on its own candidates.
  */
  function IndividualAsWritten(model: Encoder, sim: Similarity, samples: seq<Sample>): Result<RunMaps, EvalError> {
    if |samples| > 0 && !samples[0].query.Text? then Failure(UnboundQueryEmbedding)
    else AssembleRun(IndexIds(|samples|),
                     StaleReranks(sim, IndividualQueryEncoder(model), IndividualCorpusEncoder(model), samples),
                     Judgments(samples))
  }

  /** On string queries the loop as written and the corrected run agree. */
  lemma AsWrittenAgreesOnText(model: Encoder, sim: Similarity, samples: seq<Sample>)
    requires AllText(samples)
    ensures IndividualAsWritten(model, sim, samples) == IndividualRun(model, sim, samples)
  {
    var qf, cf := IndividualQueryEncoder(model), IndividualCorpusEncoder(model);
    var stale := StaleReranks(sim, qf, cf, samples);
    var own := OwnReranks(sim, qf, cf, samples);
    forall k | 0 <= k < |samples| ensures stale[k] == own[k] {
      assert QueryTexts(samples[k].query) == [samples[k].query.text];
    }
    assert stale == own;
  }

  /**
    Sample k's entries in a run as written: the rerank of the embeddings
    bound at that point, and its own judgments, under `str(k)`.
  */
  lemma AsWrittenEntry(model: Encoder, sim: Similarity, samples: seq<Sample>, k: nat)
    requires k < |samples| && samples[0].query.Text?
    ensures IndividualAsWritten(model, sim, samples).Success?
    ensures Str(k) in IndividualAsWritten(model, sim, samples).value.results
    ensures Str(k) in IndividualAsWritten(model, sim, samples).value.qrels
    ensures IndividualAsWritten(model, sim, samples).value.qrels[Str(k)] == Judge(samples[k])
    ensures var bound := BoundEmbeddings(IndividualQueryEncoder(model), IndividualCorpusEncoder(model), samples, k);
            bound.Some?
            && Rerank(sim, bound.value.0, bound.value.1) == Success(IndividualAsWritten(model, sim, samples).value.results[Str(k)])
  {
    var qf, cf := IndividualQueryEncoder(model), IndividualCorpusEncoder(model);
    var rs := StaleReranks(sim, qf, cf, samples);
    var ids := IndexIds(|samples|);
    assert AllSucceed(rs);
    IndexIdsDistinct(|samples|);
    AssembleRunContents(ids, rs, Judgments(samples));
    assert ids[k] == Str(k);
  }

  /**
    As written, a sample whose query is not a string is scored with the
    previous sample's embeddings: its results entry repeats the one before
    it, while its qrels entry judges its own candidates.
  */
  lemma StaleScoresRepeat(model: Encoder, sim: Similarity, samples: seq<Sample>, k: nat)
    requires 0 < k < |samples| && samples[0].query.Text? && !samples[k].query.Text?
    ensures IndividualAsWritten(model, sim, samples).Success?
    ensures Str(k) in IndividualAsWritten(model, sim, samples).value.results
    ensures Str(k - 1) in IndividualAsWritten(model, sim, samples).value.results
    ensures IndividualAsWritten(model, sim, samples).value.results[Str(k)]
         == IndividualAsWritten(model, sim, samples).value.results[Str(k - 1)]
    ensures Str(k) in IndividualAsWritten(model, sim, samples).value.qrels
    ensures IndividualAsWritten(model, sim, samples).value.qrels[Str(k)] == Judge(samples[k])
  {
    var qf, cf := IndividualQueryEncoder(model), IndividualCorpusEncoder(model);
    AsWrittenEntry(model, sim, samples, k);
    AsWrittenEntry(model, sim, samples, k - 1);
    var results := IndividualAsWritten(model, sim, samples).value.results;
    var bound := BoundEmbeddings(qf, cf, samples, k);
    assert bound == BoundEmbeddings(qf, cf, samples, k - 1);
    assert Success(results[Str(k)]) == Rerank(sim, bound.value.0, bound.value.1) == Success(results[Str(k - 1)]);
  }

  /**
    A concrete run as written: a string query with one candidate followed
    by a one-variant list query with two candidates. The second sample is
    scored on the first sample's single candidate, so its results entry
    has one document key while its qrels entry has two.
  */
  lemma StaleEmbeddingsCounterexample(model: Encoder, sim: Similarity)
    ensures var samples := [Sample(Text("a"), [], ["x"]), Sample(TextList(["b"]), ["y"], ["y", "z"])];
            var run := IndividualAsWritten(model, sim, samples);
            && run.Success?
            && Str(1) in run.value.results && Str(1) in run.value.qrels
            && run.value.results[Str(1)].Keys == {Str(0)}
            && run.value.qrels[Str(1)].Keys == {Str(0), Str(1)}
            && run.value.results[Str(1)].Keys != run.value.qrels[Str(1)].Keys
  {
    var samples := [Sample(Text("a"), [], ["x"]), Sample(TextList(["b"]), ["y"], ["y", "z"])];
    var qf, cf := IndividualQueryEncoder(model), IndividualCorpusEncoder(model);
    StaleScoresRepeat(model, sim, samples, 1);
    AsWrittenEntry(model, sim, samples, 0);
    var run := IndividualAsWritten(model, sim, samples).value;
    var bound := BoundEmbeddings(qf, cf, samples, 0).value;
    RerankScores(sim, bound.0, bound.1);
    assert |bound.1| == 1;
    assert run.results[Str(1)].Keys == IndexKeys(1) == {Str(0)};
    JudgeLabels(samples[1]);
    assert IndexKeys(2) == {Str(0), Str(1)};
    StrInjective(0, 1);
  }

  /**
    With one query text per sample the running query offset after sample
    k is k + 1, so the batched ids are "1".."n".
  */
  lemma TextBatchedIds(samples: seq<Sample>)
    requires AllText(samples)
    ensures forall k :: 0 <= k < |samples| ==> BatchedIds(samples)[k] == Str(k + 1)
  {
    var qc := QueryCounts(samples);
    forall k | 0 <= k < |samples| ensures qc[k] == 1 {
      assert NumSubqueries(samples[k].query) == 1;
    }
    var ids := BatchedIds(samples);
    forall k | 0 <= k < |samples| ensures ids[k] == Str(k + 1) {
      OffsetOfOnes(qc, k + 1);
    }
  }

  /**
    On samples whose queries are all single strings, with a model that
    offers both specialised encoders or neither, the batched and the
    individual run both complete and agree sample by sample; only the
    query ids differ, the batched run numbering sample k as k + 1.
  */
  lemma BatchedAgreesWithIndividual(model: Encoder, sim: Similarity, samples: seq<Sample>)
    requires |samples| > 0 && AllText(samples) && ConsistentEncoder(model)
    ensures Homogeneous(samples)
    ensures BatchedRun(model, sim, samples).Success? && IndividualRun(model, sim, samples).Success?
    ensures forall k :: 0 <= k < |samples| ==> BatchedIds(samples)[k] == Str(k + 1)
    ensures forall k :: 0 <= k < |samples| ==>
              var batched, individual, id := BatchedRun(model, sim, samples).value, IndividualRun(model, sim, samples).value, BatchedIds(samples)[k];
              && id in batched.results && Str(k) in individual.results
              && batched.results[id] == individual.results[Str(k)]
              && id in batched.qrels && Str(k) in individual.qrels
              && batched.qrels[id] == individual.qrels[Str(k)]
  {
    TextBatchedIds(samples);
    EncoderChoiceAgreement(model);
    BatchedRunOutcome(model, sim, samples);
    IndividualRunOutcome(model, sim, samples);
    BatchedIdsIncreasing(samples);
    IndexIdsDistinct(|samples|);
    var rs := OwnReranks(sim, IndividualQueryEncoder(model), IndividualCorpusEncoder(model), samples);
    var bIds, iIds := BatchedIds(samples), IndexIds(|samples|);
    var js := Judgments(samples);
    AssembleRunContents(bIds, rs, js);
    AssembleRunContents(iIds, rs, js);
    var batched, individual := BatchedRun(model, sim, samples).value, IndividualRun(model, sim, samples).value;
    forall k | 0 <= k < |samples|
      ensures bIds[k] in batched.results && Str(k) in individual.results
      ensures batched.results[bIds[k]] == individual.results[Str(k)]
      ensures bIds[k] in batched.qrels && Str(k) in individual.qrels
      ensures batched.qrels[bIds[k]] == individual.qrels[Str(k)]
    {
      assert iIds[k] == Str(k);
      assert rs[k] == Success(batched.results[bIds[k]]) && rs[k] == Success(individual.results[iIds[k]]);
      assert batched.qrels[bIds[k]] == js[k] && individual.qrels[iIds[k]] == js[k];
    }
  }

  /**
    Sample k's entry in a batched run on string queries: under `str(k + 1)`,
    the rerank of its query string against its candidates, each encoded
    with the batched path's choice of encoder.
  */
  lemma BatchedTextEntry(model: Encoder, sim: Similarity, samples: seq<Sample>, k: nat)
    requires AllText(samples) && k < |samples|
    ensures BatchedRun(model, sim, samples).Success?
    ensures Str(k + 1) in BatchedRun(model, sim, samples).value.results
    ensures Rerank(sim, [BatchedQueryEncoder(model)(samples[k].query.text)],
                   Encode(BatchedCorpusEncoder(model), samples[k].candidates))
         == Success(BatchedRun(model, sim, samples).value.results[Str(k + 1)])
  {
    var qf, cf := BatchedQueryEncoder(model), BatchedCorpusEncoder(model);
    var rs := OwnReranks(sim, qf, cf, samples);
    var ids := BatchedIds(samples);
    TextRunsAreAssembled(model, sim, samples);
    TextReranksSucceed(sim, qf, cf, samples);
    BatchedIdsIncreasing(samples);
    TextBatchedIds(samples);
    AssembleRunContents(ids, rs, Judgments(samples));
    assert ids[k] == Str(k + 1);
    assert Encode(qf, QueryTexts(samples[k].query)) == [qf(samples[k].query.text)];
  }

  /** On string queries every sample has one query row, so every rerank succeeds. */
  lemma TextReranksSucceed(sim: Similarity, qf: string -> Embedding, cf: string -> Embedding, samples: seq<Sample>)
    requires AllText(samples)
    ensures forall k :: 0 <= k < |samples| ==> NumSubqueries(samples[k].query) >= 1
    ensures AllSucceed(OwnReranks(sim, qf, cf, samples))
  {
    var rs := OwnReranks(sim, qf, cf, samples);
    forall j | 0 <= j < |samples| ensures NumSubqueries(samples[j].query) >= 1 && rs[j].Success? {
      assert samples[j].query.Text?;
      assert Encode(qf, QueryTexts(samples[j].query)) == [qf(samples[j].query.text)];
      OneQueryRowScores(sim, qf(samples[j].query.text), Encode(cf, samples[j].candidates));
    }
  }

  /** On string queries the batched run is the run assembled from the batched ids and the samples' own reranks. */
  lemma TextRunsAreAssembled(model: Encoder, sim: Similarity, samples: seq<Sample>)
    requires AllText(samples) && |samples| > 0
    ensures Homogeneous(samples)
    ensures BatchedRun(model, sim, samples)
         == AssembleRun(BatchedIds(samples), OwnReranks(sim, BatchedQueryEncoder(model), BatchedCorpusEncoder(model), samples),
                        Judgments(samples))
  {
    forall j | 0 <= j < |samples| ensures SameKind(samples[j].query, samples[0].query) {
      assert samples[j].query.Text? && samples[0].query.Text?;
    }
  }

  /**
    The batched path with the encoder choice its comment intends (each
    specialised encoder whenever it exists): on all-string samples it
    agrees with the individual path for every model, sample by sample,
    with only the query ids renumbered.
  */
  lemma NormalisedBatchedAgrees(model: Encoder, sim: Similarity, samples: seq<Sample>)
    requires |samples| > 0 && AllText(samples)
    ensures BatchedRun(Normalised(model), sim, samples).Success? && IndividualRun(model, sim, samples).Success?
    ensures forall k :: 0 <= k < |samples| ==> BatchedIds(samples)[k] == Str(k + 1)
    ensures forall k :: 0 <= k < |samples| ==>
              var batched, individual, id := BatchedRun(Normalised(model), sim, samples).value, IndividualRun(model, sim, samples).value, BatchedIds(samples)[k];
              && id in batched.results && Str(k) in individual.results
              && batched.results[id] == individual.results[Str(k)]
              && id in batched.qrels && Str(k) in individual.qrels
              && batched.qrels[id] == individual.qrels[Str(k)]
  {
    var n := Normalised(model);
    assert IndividualQueryEncoder(n) == IndividualQueryEncoder(model);
    assert IndividualCorpusEncoder(n) == IndividualCorpusEncoder(model);
    assert IndividualRun(n, sim, samples) == IndividualRun(model, sim, samples);
    BatchedAgreesWithIndividual(n, sim, samples);
  }

  /**
    A model offering `encode_queries` but not `encode_corpus`: on a
    one-sample list, the batched path scores the query encoded with
    `encode`, the individual path the query encoded with `encode_queries`.
  */
  lemma QueryEncoderOnlyScores(model: Encoder, sim: Similarity, q: string, d: string)
    requires model.encodeQueries.Some? && model.encodeCorpus.None?
    ensures var samples := [Sample(Text(q), [], [d])];
            && BatchedRun(model, sim, samples).Success? && IndividualRun(model, sim, samples).Success?
            && Str(1) in BatchedRun(model, sim, samples).value.results
            && Str(0) in IndividualRun(model, sim, samples).value.results
            && Str(0) in BatchedRun(model, sim, samples).value.results[Str(1)]
            && Str(0) in IndividualRun(model, sim, samples).value.results[Str(0)]
            && BatchedRun(model, sim, samples).value.results[Str(1)][Str(0)] == sim(model.encode(q), model.encode(d))
            && IndividualRun(model, sim, samples).value.results[Str(0)][Str(0)] == sim(model.encodeQueries.value(q), model.encode(d))
  {
    EncoderChoiceAgreement(model);
    BatchedOneSampleScore(model, sim, q, d);
    IndividualOneSampleScore(model, sim, q, d);
  }

  /** The batched score of the one candidate of a one-sample list. */
  lemma BatchedOneSampleScore(model: Encoder, sim: Similarity, q: string, d: string)
    ensures var samples := [Sample(Text(q), [], [d])];
            && BatchedRun(model, sim, samples).Success?
            && Str(1) in BatchedRun(model, sim, samples).value.results
            && Str(0) in BatchedRun(model, sim, samples).value.results[Str(1)]
            && BatchedRun(model, sim, samples).value.results[Str(1)][Str(0)]
               == sim(BatchedQueryEncoder(model)(q), BatchedCorpusEncoder(model)(d))
  {
    var samples := [Sample(Text(q), [], [d])];
    BatchedTextEntry(model, sim, samples, 0);
    var docs := Encode(BatchedCorpusEncoder(model), [d]);
    OneQueryRowScores(sim, BatchedQueryEncoder(model)(q), docs);
    assert docs[0] == BatchedCorpusEncoder(model)(d);
  }

  /** The individual score of the one candidate of a one-sample list. */
  lemma IndividualOneSampleScore(model: Encoder, sim: Similarity, q: string, d: string)
    ensures var samples := [Sample(Text(q), [], [d])];
            && IndividualRun(model, sim, samples).Success?
            && Str(0) in IndividualRun(model, sim, samples).value.results
            && Str(0) in IndividualRun(model, sim, samples).value.results[Str(0)]
            && IndividualRun(model, sim, samples).value.results[Str(0)][Str(0)]
               == sim(IndividualQueryEncoder(model)(q), IndividualCorpusEncoder(model)(d))
  {
    var samples := [Sample(Text(q), [], [d])];
    IndividualEntry(model, sim, samples, 0);
    var docs := Encode(IndividualCorpusEncoder(model), [d]);
    OneQueryRowScores(sim, IndividualQueryEncoder(model)(q), docs);
    assert docs[0] == IndividualCorpusEncoder(model)(d);
  }

  /**
    The two paths disagree on a concrete model that offers only
    `encode_queries`: `encode` maps every text to [0.0], `encode_queries`
    to [1.0], and the similarity reads the query's first coordinate.
  */
  lemma EncoderChoiceCounterexample()
    ensures var model := Encoder(t => [0.0], Some(t => [1.0]), None);
            var sim := (a: Embedding, b: Embedding) => if |a| > 0 then a[0] else 0.0;
            var samples := [Sample(Text("q"), [], ["d"])];
            && BatchedRun(model, sim, samples).Success? && IndividualRun(model, sim, samples).Success?
            && Str(1) in BatchedRun(model, sim, samples).value.results
            && Str(0) in IndividualRun(model, sim, samples).value.results
            && Str(0) in BatchedRun(model, sim, samples).value.results[Str(1)]
            && Str(0) in IndividualRun(model, sim, samples).value.results[Str(0)]
            && BatchedRun(model, sim, samples).value.results[Str(1)][Str(0)] == 0.0
            && IndividualRun(model, sim, samples).value.results[Str(0)][Str(0)] == 1.0
  {
    var model := Encoder(t => [0.0], Some(t => [1.0]), None);
    var sim := (a: Embedding, b: Embedding) => if |a| > 0 then a[0] else 0.0;
    QueryEncoderOnlyScores(model, sim, "q", "d");
  }
}

=== FILE: keys.dfy ===
/**
  String keys of the score and judgment dictionaries.

  Both dictionaries use Python's `str(i)` of a non-negative integer as key,
  and are built by assigning keys one after another. `Str` models `str`,
  `Parse` models `int` as its inverse, and `Collect` models a dictionary
  built by a sequence of assignments (a later assignment to the same key
  wins).
*/
module Keys {

  /** The decimal digit character of 0 <= d < 10. */
  function DigitChar(d: nat): (c: char)
    requires d < 10
    ensures '0' <= c <= '9'
  {
    ('0' as int + d) as char
  }

  /** The value of a decimal digit character. */
  function DigitValue(c: char): nat
    requires '0' <= c <= '9'
  {
    c as int - '0' as int
  }

  /** Every character is a decimal digit (stated from the last one back, as `Parse` reads it). */
  predicate IsDecimal(s: string)
    decreases |s|
  {
    |s| == 0 || ('0' <= s[|s| - 1] <= '9' && IsDecimal(s[..|s| - 1]))
  }

  /** Python's `str(n)` for a non-negative integer: decimal, no leading zeros. */
  function Str(n: nat): (s: string)
    ensures 1 <= |s|
    decreases n
  {
    if n < 10 then [DigitChar(n)] else Str(n / 10) + [DigitChar(n % 10)]
  }

  /** `str(n)` is all decimal digits, with no leading zero unless n is 0. */
  lemma {:induction false} StrIsDecimal(n: nat)
    ensures IsDecimal(Str(n))
    ensures Str(n)[0] == '0' ==> n == 0
    decreases n
  {
    if n >= 10 {
      StrIsDecimal(n / 10);
      var s := Str(n);
      assert s[..|s| - 1] == Str(n / 10);
      assert s[0] == Str(n / 10)[0];
    }
  }

  /** Python's `int(s)` for a string of decimal digits. */
  function Parse(s: string): nat
    requires IsDecimal(s)
  {
    if |s| == 0 then 0 else 10 * Parse(s[..|s| - 1]) + DigitValue(s[|s| - 1])
  }

  /** `int(str(n)) == n`. */
  lemma {:induction false} ParseStr(n: nat)
    ensures IsDecimal(Str(n)) && Parse(Str(n)) == n
  {
    StrIsDecimal(n);
    if n >= 10 {
      var s := Str(n);
      assert s[..|s| - 1] == Str(n / 10);
      ParseStr(n / 10);
    }
  }

  /** Distinct indices give distinct keys. */
  lemma StrInjective(a: nat, b: nat)
    ensures Str(a) == Str(b) ==> a == b
  {
    ParseStr(a);
    ParseStr(b);
  }

  lemma StrInjectiveAll()
    ensures forall a: nat, b: nat :: Str(a) == Str(b) ==> a == b
  {
    forall a: nat, b: nat ensures Str(a) == Str(b) ==> a == b {
      StrInjective(a, b);
    }
  }

  predicate Distinct<T(==)>(xs: seq<T>) {
    forall i, j :: 0 <= i < j < |xs| ==> xs[i] != xs[j]
  }

  /** The keys `str(0)`, ..., `str(n - 1)` in order. */
  function IndexIds(n: nat): (ids: seq<string>)
    ensures |ids| == n
    ensures forall i {:trigger ids[i]} :: 0 <= i < n ==> ids[i] == Str(i)
  {
    seq(n, i requires 0 <= i < n => Str(i))
  }

  /** The key set `{str(0), ..., str(n - 1)}`. */
  function IndexKeys(n: nat): set<string> {
    set i | 0 <= i < n :: Str(i)
  }

  lemma IndexIdsDistinct(n: nat)
    ensures Distinct(IndexIds(n))
    ensures (set x | x in IndexIds(n)) == IndexKeys(n)
  {
    StrInjectiveAll();
    var ids := IndexIds(n);
    forall x | x in IndexKeys(n) ensures x in ids {
      var i :| 0 <= i < n && x == Str(i);
      assert ids[i] == x;
    }
  }

  /**
    The dictionary obtained by assigning `vals[k]` to `ids[k]` for k in
    order (see CollectContents).
  */
  function Collect<V>(ids: seq<string>, vals: seq<V>): map<string, V>
    requires |ids| == |vals|
    decreases |ids|
  {
    if |ids| == 0 then map[]
    else Collect(ids[..|ids| - 1], vals[..|vals| - 1])[ids[|ids| - 1] := vals[|vals| - 1]]
  }

  /**
    The keys of a dictionary built by assignments are exactly the assigned
    ids, and when no id is assigned twice every id holds its own value.
  */
  lemma {:induction false} CollectContents<V>(ids: seq<string>, vals: seq<V>)
    requires |ids| == |vals|
    ensures Collect(ids, vals).Keys == set x | x in ids
    ensures Distinct(ids) ==> forall k :: 0 <= k < |ids| ==> Collect(ids, vals)[ids[k]] == vals[k]
    decreases |ids|
  {
    if |ids| > 0 {
      var n := |ids| - 1;
      CollectContents(ids[..n], vals[..n]);
      assert forall k :: 0 <= k < n ==> ids[..n][k] == ids[k];
      assert (set x | x in ids) == (set x | x in ids[..n]) + {ids[n]};
    }
  }

  /**
    When an id assigned twice is always assigned the same value, every id
    holds its own value, repeated ids or not.
  */
  lemma {:induction false} CollectConsistent<V>(ids: seq<string>, vals: seq<V>)
    requires |ids| == |vals|
    requires forall i, j :: 0 <= i < |ids| && 0 <= j < |ids| && ids[i] == ids[j] ==> vals[i] == vals[j]
    ensures forall k :: 0 <= k < |ids| ==> ids[k] in Collect(ids, vals) && Collect(ids, vals)[ids[k]] == vals[k]
    decreases |ids|
  {
    if |ids| > 0 {
      var n := |ids| - 1;
      var prefixIds, prefixVals := ids[..n], vals[..n];
      assert forall i :: 0 <= i < n ==> prefixIds[i] == ids[i] && prefixVals[i] == vals[i];
      CollectConsistent(prefixIds, prefixVals);
    }
  }

  /** Assigning the next key extends the dictionary built so far. */
  lemma CollectStep<V>(ids: seq<string>, vals: seq<V>, k: nat, m: map<string, V>, key: string)
    requires |ids| == |vals| && k < |ids|
    requires m == Collect(ids[..k], vals[..k]) && key == ids[k]
    ensures m[key := vals[k]] == Collect(ids[..k + 1], vals[..k + 1])
  {
    assert ids[..k + 1][..k] == ids[..k];
    assert vals[..k + 1][..k] == vals[..k];
  }

  /**
    Python's `{str(i): v for i, v in enumerate(vs)}`: the keys are assigned
    in index order (see EnumerateContents).
  */
  function Enumerate<V>(vs: seq<V>): map<string, V>
    decreases |vs|
  {
    if |vs| == 0 then map[]
    else Enumerate(vs[..|vs| - 1])[Str(|vs| - 1) := vs[|vs| - 1]]
  }

  /** One entry per position, keyed "0" .. "n-1" with no gaps or duplicates. */
  lemma {:induction false} EnumerateContents<V>(vs: seq<V>)
    ensures Enumerate(vs).Keys == IndexKeys(|vs|)
    ensures forall i {:trigger vs[i]} :: 0 <= i < |vs| ==> Str(i) in Enumerate(vs) && Enumerate(vs)[Str(i)] == vs[i]
    decreases |vs|
  {
    if |vs| > 0 {
      var n := |vs| - 1;
      var prefix := vs[..n];
      EnumerateContents(prefix);
      assert IndexKeys(n + 1) == IndexKeys(n) + {Str(n)};
      forall i | 0 <= i < n
        ensures Str(i) in Enumerate(vs) && Enumerate(vs)[Str(i)] == vs[i]
      {
        StrInjective(i, n);
        assert prefix[i] == vs[i];
      }
    }
  }
}

=== FILE: metrics.dfy ===
/**
  Merging the four metric groups the relevance-metrics engine returns
  into one flat mapping, as both evaluation paths do on their way out.
  The engine itself is not modelled: a group is a map from a metric name
  such as "NDCG@10" to its value.
*/
module Metrics {
  type MetricMap = map<string, real>

  /** The engine's four groups, in the order they are merged. */
  datatype MetricGroups = MetricGroups(ndcg: MetricMap, averagePrecision: MetricMap, recall: MetricMap, precision: MetricMap)

  /**
    `{**ndcg, **_map, **recall, **precision}`: every name of every group,
    a name present in several groups taking the value of the last one.
  */
  function Merge(g: MetricGroups): (m: MetricMap)
    ensures m.Keys == g.ndcg.Keys + g.averagePrecision.Keys + g.recall.Keys + g.precision.Keys
    ensures forall name :: name in m ==>
              m[name] == (if name in g.precision then g.precision[name]
                          else if name in g.recall then g.recall[name]
                          else if name in g.averagePrecision then g.averagePrecision[name]
                          else g.ndcg[name])
  {
    g.ndcg + g.averagePrecision + g.recall + g.precision
  }

  /** No metric name appears in two groups. */
  predicate DisjointGroups(g: MetricGroups) {
    && g.ndcg.Keys !! g.averagePrecision.Keys && g.ndcg.Keys !! g.recall.Keys && g.ndcg.Keys !! g.precision.Keys
    && g.averagePrecision.Keys !! g.recall.Keys && g.averagePrecision.Keys !! g.precision.Keys
    && g.recall.Keys !! g.precision.Keys
  }

  /**
    With distinct metric names across groups, nothing is lost in the
    merge: every group's values appear unchanged, and the merged mapping
    holds exactly as many entries as the groups together.
  */
  lemma MergeKeepsDisjointGroups(g: MetricGroups)
    requires DisjointGroups(g)
    ensures forall name :: name in g.ndcg ==> name in Merge(g) && Merge(g)[name] == g.ndcg[name]
    ensures forall name :: name in g.averagePrecision ==> name in Merge(g) && Merge(g)[name] == g.averagePrecision[name]
    ensures forall name :: name in g.recall ==> name in Merge(g) && Merge(g)[name] == g.recall[name]
    ensures forall name :: name in g.precision ==> name in Merge(g) && Merge(g)[name] == g.precision[name]
    ensures |Merge(g)| == |g.ndcg| + |g.averagePrecision| + |g.recall| + |g.precision|
  {
  }
}

=== FILE: partition.dfy ===
/**
  Flattening per-sample lists into one list, and cutting the flattened
  list back into per-sample blocks with running offsets.

  The batched evaluator concatenates every sample's query texts (and every
  sample's candidate texts) into one list, encodes it once, and then walks
  the samples again, slicing the encoded rows with a running offset that
  advances by each sample's count.
*/
module Partition {

  /** All blocks concatenated in order, as built by repeated `list.extend`. */
  function Concat<T>(xss: seq<seq<T>>): seq<T>
    decreases |xss|
  {
    if |xss| == 0 then [] else Concat(xss[..|xss| - 1]) + xss[|xss| - 1]
  }

  /** The length of every block. */
  function Lengths<T>(xss: seq<seq<T>>): (ls: seq<nat>)
    ensures |ls| == |xss|
    ensures forall k :: 0 <= k < |xss| ==> ls[k] == |xss[k]|
  {
    seq(|xss|, k requires 0 <= k < |xss| => |xss[k]|)
  }

  /** The running offset before block k: the sum of the first k counts. */
  function Offset(counts: seq<nat>, k: nat): nat
    requires k <= |counts|
  {
    if k == 0 then 0 else Offset(counts, k - 1) + counts[k - 1]
  }

  /**
    numpy's `a[lo:hi]` for 0 <= lo: both bounds are clamped to the length,
    and a slice whose start lies past its end is empty.
  */
  function Slice<T>(s: seq<T>, lo: nat, hi: nat): (r: seq<T>)
    ensures lo <= hi <= |s| ==> r == s[lo..hi]
    ensures |r| > 0 ==> lo < hi && lo < |s|
    ensures |r| <= |s|
  {
    var a := if lo <= |s| then lo else |s|;
    var b := if hi <= |s| then hi else |s|;
    if a <= b then s[a..b] else []
  }

  /** Offsets never decrease. */
  lemma {:induction false} OffsetMonotone(counts: seq<nat>, j: nat, k: nat)
    requires j <= k <= |counts|
    ensures Offset(counts, j) <= Offset(counts, k)
    decreases k
  {
    if j < k {
      OffsetMonotone(counts, j, k - 1);
    }
  }

  /** With every count at least one, offsets strictly increase. */
  lemma OffsetStrictlyIncreasing(counts: seq<nat>, j: nat, k: nat)
    requires forall i :: 0 <= i < |counts| ==> counts[i] >= 1
    requires j < k <= |counts|
    ensures Offset(counts, j) < Offset(counts, k)
  {
    OffsetMonotone(counts, j + 1, k);
  }

  /** With every count exactly one, the offset before block k is k. */
  lemma {:induction false} OffsetOfOnes(counts: seq<nat>, k: nat)
    requires forall i :: 0 <= i < |counts| ==> counts[i] == 1
    requires k <= |counts|
    ensures Offset(counts, k) == k
  {
    if k > 0 {
      OffsetOfOnes(counts, k - 1);
    }
  }

  /** The first k blocks flatten to exactly Offset(k) elements. */
  lemma {:induction false} ConcatPrefixLength<T>(xss: seq<seq<T>>, k: nat)
    requires k <= |xss|
    ensures |Concat(xss[..k])| == Offset(Lengths(xss), k)
  {
    if k > 0 {
      assert xss[..k][..k - 1] == xss[..k - 1];
      ConcatPrefixLength(xss, k - 1);
    }
  }

  /** Flattening the first k blocks gives a prefix of flattening them all. */
  lemma {:induction false} ConcatPrefix<T>(xss: seq<seq<T>>, k: nat)
    requires k <= |xss|
    ensures Concat(xss[..k]) <= Concat(xss)
    decreases |xss|
  {
    if k < |xss| {
      var n := |xss| - 1;
      assert xss[..n][..k] == xss[..k];
      ConcatPrefix(xss[..n], k);
      assert Concat(xss) == Concat(xss[..n]) + xss[n];
    } else {
      assert xss[..k] == xss;
    }
  }

  /** After every block the running offset equals the flattened length. */
  lemma FinalOffset<T>(xss: seq<seq<T>>)
    ensures Offset(Lengths(xss), |xss|) == |Concat(xss)|
  {
    ConcatPrefixLength(xss, |xss|);
    assert xss[..|xss|] == xss;
  }

  /**
    Re-partition is a left inverse of flattening: slicing the flattened
    list between the running offsets before and after block k gives back
    exactly block k, in order.
  */
  lemma PartitionRecoversBlock<T>(xss: seq<seq<T>>, k: nat)
    requires k < |xss|
    ensures Offset(Lengths(xss), k + 1) == Offset(Lengths(xss), k) + |xss[k]|
    ensures Slice(Concat(xss), Offset(Lengths(xss), k), Offset(Lengths(xss), k + 1)) == xss[k]
  {
    var lo := Offset(Lengths(xss), k);
    var hi := Offset(Lengths(xss), k + 1);
    ConcatPrefixLength(xss, k);
    ConcatPrefixLength(xss, k + 1);
    ConcatPrefix(xss, k + 1);
    assert xss[..k + 1][..k] == xss[..k];
    var prefix := Concat(xss[..k + 1]);
    assert prefix == Concat(xss[..k]) + xss[k];
    assert hi <= |Concat(xss)|;
    assert Concat(xss)[lo..hi] == prefix[lo..hi];
  }

  /** `[f(0), ..., f(n - 1)]`, built front to back. */
  function Tabulate<T>(f: nat -> T, n: nat): (xs: seq<T>)
    ensures |xs| == n
  {
    if n == 0 then [] else Tabulate(f, n - 1) + [f(n - 1)]
  }

  /** Entry k of a tabulation is f(k). */
  lemma {:induction false} TabulateAt<T>(f: nat -> T, n: nat, k: nat)
    requires k < n
    ensures Tabulate(f, n)[k] == f(k)
  {
    if k < n - 1 {
      TabulateAt(f, n - 1, k);
    }
  }
}

=== FILE: scoring.dfy ===
/**
  Reranking one sample: scoring every candidate row against the query
  rows, max-pooling over the query rows, and keying the scores by
  candidate index.
*/
module Scoring {
  import opened Wrappers
  import opened Keys
  import opened Data
  import opened Encoding

  /** The R x C similarity matrix of R query rows against C candidate rows. */
  function SimilarityMatrix(sim: Similarity, qs: seq<Embedding>, ds: seq<Embedding>): (m: seq<seq<Score>>)
    ensures |m| == |qs|
    ensures forall r :: 0 <= r < |qs| ==> |m[r]| == |ds|
    ensures forall r, c :: 0 <= r < |qs| && 0 <= c < |ds| ==> m[r][c] == sim(qs[r], ds[c])
  {
    seq(|qs|, r requires 0 <= r < |qs| => seq(|ds|, c requires 0 <= c < |ds| => sim(qs[r], ds[c])))
  }

  predicate IsMatrix(m: seq<seq<Score>>, width: nat) {
    forall r :: 0 <= r < |m| ==> |m[r]| == width
  }

  function Max(a: Score, b: Score): Score {
    if a < b then b else a
  }

  /** The maximum of column c over all rows (`amax` along dimension 0). */
  function ColumnMax(m: seq<seq<Score>>, width: nat, c: nat): (v: Score)
    requires |m| > 0 && IsMatrix(m, width) && c < width
    ensures forall r :: 0 <= r < |m| ==> m[r][c] <= v
    ensures exists r :: 0 <= r < |m| && m[r][c] == v
    decreases |m|
  {
    if |m| == 1 then m[0][c]
    else Max(ColumnMax(m[..|m| - 1], width, c), m[|m| - 1][c])
  }

  /** Collapsing an R x C matrix (R >= 1) to one score per column. */
  function MaxPool(m: seq<seq<Score>>, width: nat): (v: seq<Score>)
    requires |m| > 0 && IsMatrix(m, width)
    ensures |v| == width
    ensures forall c :: 0 <= c < width ==> v[c] == ColumnMax(m, width, c)
  {
    seq(width, c requires 0 <= c < width => ColumnMax(m, width, c))
  }

  /**
    Every candidate c has a score that is at least its similarity to each
    query row and equal to its similarity to some query row.
  */
  predicate IsMaxPooled(sim: Similarity, qs: seq<Embedding>, ds: seq<Embedding>, scores: ScoreMap) {
    && (forall c {:trigger ds[c]} :: 0 <= c < |ds| ==> Str(c) in scores)
    && (forall c, r {:trigger sim(qs[r], ds[c])} :: 0 <= c < |ds| && 0 <= r < |qs| && Str(c) in scores ==>
          sim(qs[r], ds[c]) <= scores[Str(c)])
    && (forall c {:trigger ds[c]} :: 0 <= c < |ds| && Str(c) in scores ==>
          exists r {:trigger qs[r]} :: 0 <= r < |qs| && scores[Str(c)] == sim(qs[r], ds[c]))
  }

  /** The pooled scores of the similarity matrix, keyed by candidate index. */
  function PooledScores(sim: Similarity, qs: seq<Embedding>, ds: seq<Embedding>): ScoreMap
    requires |qs| > 0
  {
    Enumerate(MaxPool(SimilarityMatrix(sim, qs, ds), |ds|))
  }

  lemma PooledScoresAreMaxPooled(sim: Similarity, qs: seq<Embedding>, ds: seq<Embedding>)
    requires |qs| > 0
    ensures PooledScores(sim, qs, ds).Keys == IndexKeys(|ds|)
    ensures IsMaxPooled(sim, qs, ds, PooledScores(sim, qs, ds))
  {
    var m := SimilarityMatrix(sim, qs, ds);
    var pooled := MaxPool(m, |ds|);
    var scores := Enumerate(pooled);
    EnumerateContents(pooled);
    forall c | 0 <= c < |ds|
      ensures Str(c) in scores
      ensures forall r :: 0 <= r < |qs| ==> sim(qs[r], ds[c]) <= scores[Str(c)]
      ensures exists r :: 0 <= r < |qs| && scores[Str(c)] == sim(qs[r], ds[c])
    {
      assert scores[Str(c)] == pooled[c] == ColumnMax(m, |ds|, c);
      var r :| 0 <= r < |m| && m[r][c] == ColumnMax(m, |ds|, c);
      assert scores[Str(c)] == sim(qs[r], ds[c]);
    }
  }

  /**
    `rerank`: fails on an empty query block, whatever the number of
    candidates, and returns the empty map when there are no candidates
    (see RerankScores for the scores themselves).
  */
  function Rerank(sim: Similarity, queryEmb: seq<Embedding>, docsEmb: seq<Embedding>): (r: Result<ScoreMap, EvalError>)
    ensures r.Failure? <==> |queryEmb| == 0
    ensures r.Failure? ==> r.error == EmptyQueryEmbedding
    ensures |queryEmb| > 0 && |docsEmb| == 0 ==> r == Success(map[])
  {
    if |queryEmb| == 0 then Failure(EmptyQueryEmbedding)
    else if |docsEmb| == 0 then Success(map[])
    else Success(PooledScores(sim, queryEmb, docsEmb))
  }

  /**
    A successful rerank has one entry per candidate, keyed "0" .. "C-1",
    holding the maximum similarity of that candidate over all query rows.
  */
  lemma RerankScores(sim: Similarity, queryEmb: seq<Embedding>, docsEmb: seq<Embedding>)
    requires |queryEmb| > 0
    ensures Rerank(sim, queryEmb, docsEmb).value.Keys == IndexKeys(|docsEmb|)
    ensures IsMaxPooled(sim, queryEmb, docsEmb, Rerank(sim, queryEmb, docsEmb).value)
  {
    if |docsEmb| > 0 {
      PooledScoresAreMaxPooled(sim, queryEmb, docsEmb);
    }
  }

  /** With one query row every score is that row's similarity. */
  lemma SingleQueryRowScores(sim: Similarity, q: Embedding, docsEmb: seq<Embedding>, c: nat)
    requires c < |docsEmb|
    ensures Rerank(sim, [q], docsEmb).Success?
    ensures Str(c) in Rerank(sim, [q], docsEmb).value
    ensures Rerank(sim, [q], docsEmb).value[Str(c)] == sim(q, docsEmb[c])
  {
    RerankScores(sim, [q], docsEmb);
    var r := Rerank(sim, [q], docsEmb).value;
    assert Str(c) in r;
    assert sim([q][0], docsEmb[c]) <= r[Str(c)];
  }

  /**
    The pooled score is the larger of the per-row similarities: a later
    query variant that matches a candidate better than the first one
    decides that candidate's score.
  */
  lemma MaxPoolPicksBestVariant(sim: Similarity, q0: Embedding, q1: Embedding, docsEmb: seq<Embedding>, c: nat)
    requires c < |docsEmb|
    ensures Str(c) in Rerank(sim, [q0, q1], docsEmb).value
    ensures Rerank(sim, [q0, q1], docsEmb).value[Str(c)] == Max(sim(q0, docsEmb[c]), sim(q1, docsEmb[c]))
  {
    RerankScores(sim, [q0, q1], docsEmb);
    var r := Rerank(sim, [q0, q1], docsEmb).value;
    assert Str(c) in r;
    assert sim([q0, q1][0], docsEmb[c]) <= r[Str(c)];
    assert sim([q0, q1][1], docsEmb[c]) <= r[Str(c)];
  }

  /**
    Every sample reranked on the encodings of its own query texts and its
    own candidates, in sample order.
  */
  function OwnReranks(sim: Similarity, qf: string -> Embedding, cf: string -> Embedding, samples: seq<Sample>)
    : (rs: seq<Result<ScoreMap, EvalError>>)
    ensures |rs| == |samples|
    ensures forall k :: 0 <= k < |samples| ==>
              rs[k] == Rerank(sim, Encode(qf, QueryTexts(samples[k].query)), Encode(cf, samples[k].candidates))
  {
    seq(|samples|, k requires 0 <= k < |samples| =>
      Rerank(sim, Encode(qf, QueryTexts(samples[k].query)), Encode(cf, samples[k].candidates)))
  }
}

=== FILE: wrappers.dfy ===
/** Failure-compatible result types used across the model. */
module Wrappers {

  /** An optional value: Python's "maybe unset" local variable or attribute. */
  datatype Option<+T> = None | Some(value: T)

  /** A computation that either produced a value or raised an error. */
  datatype Result<+T, +E> = Success(value: T) | Failure(error: E)
}
